=== FILE: README.md ===
# Portfolio site logic, modelled in Dafny

This project models the stateful logic of a personal portfolio website built
with Next.js. It covers:

- the two chat widgets and the `/api/chat` route they use;
- the contact form ("Hire Me" dialog) and the `/api/contact` route;
- the landing page's navigation state: the active section, the scrolled
  header, the menus and the dialogs;
- the project carousels (the project dialog and the `/projects` gallery)
  and the rotating hero text;
- the project card's lookup of its own project in the list, and the dialog state it keeps while closed.

Each React component's state becomes an immutable datatype, and each event
handler becomes a pure transition function. Anything the browser or a remote
service supplies is passed in as an input: element boxes, `scrollY`, the
outcome of a `fetch`, the chat-completion SDK's result, the mail transport's
result. JavaScript details the code relies on are written out in
`JsRuntime`:

- a property read off a parsed request or response body is modelled as
  `undefined`, `null` or a string (see "## Left out" for other JSON values);
- `${undefined}` prints `undefined`;
- `a || b` treats `""` as falsy;
- `trim` removes exactly the ECMAScript whitespace and line terminators;
- `%` truncates toward zero.

Modules follow the source files:

- `RasaChat` (`components/chatbot.tsx`);
- `FloatingChat` (`components/FloatingChatbot.tsx`);
- `ChatRoute` and `ContactRoute` (the two API routes), over the response
  shapes in `Http`;
- `HireMe`, `ProjectDialog`, `ProjectGallery`, `ProjectCard`,
  `RotatingText`, `HeroSection` and `Navbar`;
- `Carousel`, which holds the wrap-around index arithmetic shared by the
  dialog, the gallery and the rotating text;
- `NavItems`, which holds the four navigation labels and the scroll
  threshold shared by the hero header and the navbar.

`ChatFlow` and `ContactFlow` connect a widget to the route it posts to.

Some behaviour of the chat subsystem is worth stating plainly, because a
reader might expect otherwise:

- No widget appends a placeholder bot message. A reply is appended when the
  request settles.
- The chat route has no 400 validation path. A missing `message` is
  forwarded as it is. A body that does not parse, or parses to `null`, escapes
  the handler.
- The string-message widget (`FloatingChatbot.tsx`) has no loading guard.
  A second submit while loading issues a second request
  (`FloatingChat.SecondSubmitWhileLoading`).
- Of the chat routes, only `app/api/chat/route.ts` (the direct
  chat-completion call) is modelled. The Rasa widget talks to its server
  directly from the browser.

## Model

| member | source | states |
|---|---|---|
| `JsRuntime.Trim` | components/chatbot.tsx:52 | `input.trim()` is empty exactly when every character of the input is JavaScript whitespace; otherwise it starts and ends with a non-space character |
| `JsRuntime.TrimStart` | components/chatbot.tsx:52 | the leading-whitespace pass of `trim` removes only whitespace, keeps a suffix, and stops at a non-space character |
| `JsRuntime.TrimEnd` | components/chatbot.tsx:52 | the trailing-whitespace pass of `trim` removes only whitespace, keeps a prefix, and stops at a non-space character |
| `JsRuntime.SkipSpaces` | components/chatbot.tsx:52 | the search for where `trim` starts keeping characters passes only whitespace and stops at the first character it keeps |
| `JsRuntime.SkipSpacesBack` | components/chatbot.tsx:52 | the search back for where `trim` stops keeping characters passes only whitespace and stops after the last character it keeps |
| `JsRuntime.TrimIsSlice` | components/chatbot.tsx:52 | `trim` removes exactly the whitespace at the two ends: its result is a contiguous slice of the input with only whitespace before and after it |
| `JsRuntime.JsRem` | components/project-dialog.tsx:45 | JavaScript `%` agrees with the mathematical remainder for a non-negative dividend and a positive divisor, and carries the dividend's sign otherwise |
| `JsRuntime.ToLower` | components/navbar.tsx:37 | `toLowerCase` keeps the length and lowers each ASCII letter in place |
| `RasaChat.Mounted` | components/chatbot.tsx:27-41 | after mounting, the conversation is exactly one bot welcome message with id `welcome-0`, the input is empty and nothing is loading |
| `RasaChat.MountedIsSingleFlight` | components/chatbot.tsx:27-29 | a freshly mounted chat has no request in flight and is not loading |
| `RasaChat.SetInput` | components/chatbot.tsx:147 | typing replaces the input and changes nothing else |
| `RasaChat.Begin` | components/chatbot.tsx:50-63 | a blank input or a submit while loading changes nothing and sends nothing; otherwise exactly one user message holding the raw, untrimmed input is appended, the input is cleared, loading starts, and `{sender: "user", message: input}` is sent |
| `RasaChat.Settle` | components/chatbot.tsx:59-87 | every settle ends loading, keeps all earlier messages and appends at least one. An ok, non-empty reply array appends one bot message per element, in order. An empty array or non-ok response appends one error message: the body's truthy `error`, else the server-error text. A throw or a `null` body appends one error message with the connection text |
| `RasaChat.SettleAddsNoUserMessage` | components/chatbot.tsx:68-84 | no settled outcome adds a user message, and a thrown error's description never reaches the screen |
| `RasaChat.SubmitDisabledIffNoop` | components/chatbot.tsx:150-153 | the send button is disabled exactly when the submit handler's guard would make a submit a no-op |
| `RasaChat.TypingWhileInFlight` | components/chatbot.tsx:127-150 | the typing indicator shows and the text field is disabled exactly when a submit has issued a request, and both are gone once it settles |
| `RasaChat.OneTurn` | components/chatbot.tsx:50-87 | a valid submit followed by its settle appends the user's message, then either all the replies or one error, and never another user message; it ends with an empty input, not loading |
| `RasaChat.RunKeepsSingleFlight` | components/chatbot.tsx:50-87 | over any sequence of typing, submits and settles, at most one request is in flight, exactly while the chat is loading, and the message list is append-only |
| `RasaChat.OpenWidget` | components/chatbot.tsx:191-199 | the floating button opens the panel with a freshly mounted conversation; an open panel is unaffected |
| `RasaChat.CloseWidget` | components/chatbot.tsx:95-102 | the panel's close button closes the widget |
| `RasaChat.MouseDown` | components/chatbot.tsx:167-177 | a mousedown closes the widget exactly when it is open and the click lands outside the panel, and leaves it otherwise unchanged |
| `RasaChat.ReopenStartsOver` | components/chatbot.tsx:182-189 | because closing unmounts the panel, reopening shows only the welcome message |
| `FloatingChat.Initial` | components/FloatingChatbot.tsx:12-14 | the panel starts with no entries, an empty input and no loading |
| `FloatingChat.SetInput` | components/FloatingChatbot.tsx:95 | typing replaces the input and changes nothing else |
| `FloatingChat.Begin` | components/FloatingChatbot.tsx:16-34 | a blank input changes nothing and sends nothing; any other input, even while loading, appends `"You: " + input`, clears the input, sets loading and sends `{message: input}` |
| `FloatingChat.ReplyEntry` | components/FloatingChatbot.tsx:38-59 | an ok response gives `Bot: ` followed by the printed `reply`. A non-ok one gives `Error: ` followed by the truthy `error`, else `Something went wrong`. A thrown `Error` gives the connection prefix followed by its message; any other thrown value gives `Unknown error` |
| `FloatingChat.Settle` | components/FloatingChatbot.tsx:38-62 | a settle appends exactly one entry, the reply-or-error entry, and ends loading |
| `FloatingChat.TypingWhileInFlight` | components/FloatingChatbot.tsx:83-85 | "Bot is typing..." appears with every request sent, a blank submit leaves it as it was, and it is gone once a request settles |
| `FloatingChat.EntryStyling` | components/FloatingChatbot.tsx:77 | a user entry is styled as the user's, and no reply or error entry ever is, since it starts with `Bot: ` or `Error: ` |
| `FloatingChat.OneTurn` | components/FloatingChatbot.tsx:21-62 | a valid submit and its settle append exactly the user entry and one non-user entry, in that order, and end with loading off |
| `FloatingChat.SecondSubmitWhileLoading` | components/FloatingChatbot.tsx:21-25 | with no loading guard, typing and submitting two non-blank inputs in a row puts two more requests in flight |
| `FloatingChat.TypingEndsWithFirstReply` | components/FloatingChatbot.tsx:60-62 | after two submits, the first reply to settle clears the loading flag and hides "Bot is typing..." while the second request is still pending |
| `FloatingChat.RunAppendsOnly` | components/FloatingChatbot.tsx:23-59 | over any sequence of events, earlier entries are never changed or removed |
| `FloatingChat.InitialWidget` | components/FloatingChatbot.tsx:107 | the widget starts closed, with no chat panel mounted |
| `FloatingChat.Toggle` | components/FloatingChatbot.tsx:107-117 | the button flips `isOpen`; opening mounts an empty chat and closing discards it |
| `FloatingChat.ToggleTwice` | components/FloatingChatbot.tsx:117 | two toggles return a closed widget to its initial state, and reopening shows an empty conversation |
| `ChatRoute.BuildRequest` | app/api/chat/route.ts:15-18 | the completion request uses model `GPT-4o` and holds exactly one message, with role `user` and the request's `message` as its unvalidated content |
| `ChatRoute.Post` | app/api/chat/route.ts:11-27 | a body that does not parse, or parses to `null`, escapes the handler before any SDK call. Otherwise the built request is sent. A returned choice gives `{reply}` with the default status. An SDK error, or no choice at all, gives status 500 with `{error: String(error)}` |
| `ChatRoute.ResponseShapes` | app/api/chat/route.ts:20-26 | a normalised response carries `{reply}` exactly when its status is 200 and the SDK returned a choice, and carries `{error}` exactly when its status is 500 |
| `ChatFlow.TurnThroughRoute` | components/FloatingChatbot.tsx:28-45 | a valid submit sends its raw input as the single user message of the completion request. The entry appended is `Bot: ` followed by the first choice's printed content, or `Error: ` followed by the route's error text, or the default text when that is empty |
| `ContactRoute.BuildMail` | app/api/contact/route.ts:20-25 | the mail goes from the submitted email to the configured `EMAIL_USER`, the subject is the fixed prefix followed by the printed name, and the text lists name, email, company and message in that order |
| `ContactRoute.Post` | app/api/contact/route.ts:5-34 | no field is validated. A body that does not parse, or parses to `null`, escapes before any mail is built. Otherwise the built mail is handed to the transport: delivery gives 200 `{message: "Message sent successfully."}` and failure gives 500 `{error: "Failed to send message."}` |
| `ContactRoute.SplitLineExact` | app/api/contact/route.ts:24 | a line without a line break splits off the mail text exactly at its newline |
| `ContactRoute.ReadLineExact` | app/api/contact/route.ts:24 | a labelled line of the mail text reads back its value |
| `ContactRoute.MailTextRoundTrip` | app/api/contact/route.ts:24 | when name, email and company contain no line break, reading the mail text back recovers all four printed fields |
| `HireMe.EmptyForm` | components/HireMeModal.tsx:23-28 | the initial form has all four fields empty |
| `HireMe.HandleChange` | components/HireMeModal.tsx:29-33 | a change sets exactly the named field and leaves the other three as they were |
| `HireMe.ChangesCommute` | components/HireMeModal.tsx:32 | edits to different fields commute, and a later edit of a field overrides an earlier one |
| `HireMe.HandleSubmit` | components/HireMeModal.tsx:37-71 | an ok response resets every field, calls `onClose` once and shows the success toast. A non-ok response or an exception keeps the form, does not close, and shows a destructive toast |
| `HireMe.Submit` | components/HireMeModal.tsx:86-129 | the browser blocks the submit, and nothing is posted, exactly when name, email or message is empty or the email is rejected. Otherwise the dialog closes exactly on an ok response, with the form reset and the success toast; on failure the form is kept and the toast is destructive |
| `HireMe.EmptyFormIsBlocked` | components/HireMeModal.tsx:95 | an untouched form, or one with only the optional company filled in, is never posted |
| `ContactFlow.SubmitThroughRoute` | components/HireMeModal.tsx:37-71 | a form the browser rejects posts nothing. For one it accepts, the mail carries the dialog's own values with the submitter as sender. The dialog resets and closes exactly when the mail was delivered. The mail text reads back as the form when name, email and company hold no line break |
| `Carousel.Next` | components/project-dialog.tsx:44-47 | for an index in range, the next index is in range and moves one forward, wrapping from the last item to the first |
| `Carousel.Prev` | components/project-dialog.tsx:49-52 | for an index in range, the previous index is in range and moves one back, wrapping from the first item to the last |
| `Carousel.NextPrevInverse` | components/project-dialog.tsx:44-52 | Prev undoes Next and Next undoes Prev |
| `Carousel.TwoItemsCoincide` | app/projects/page.tsx:96-102 | with two items, Next and Prev go to the same item |
| `Carousel.AdvanceIsOffset` | components/useRotatingText.ts:11 | `k` Next steps from an index in range is `(i + k) mod n` |
| `Carousel.FullCycle` | components/project-dialog.tsx:44-47 | `n` Next steps return to the starting item |
| `Carousel.CycleVisitsDistinct` | components/project-dialog.tsx:44-47 | the first `n` Next steps from an item visit `n` different items, so every project is reached once per cycle |
| `ProjectDialog.Open` | components/project-dialog.tsx:33-35 | the dialog starts on `initialProjectIndex` with every section collapsed and the desktop layout |
| `ProjectDialog.Resized` | components/project-dialog.tsx:37-42 | the accordion layout is used exactly when the viewport is narrower than 640 pixels, and nothing else changes |
| `ProjectDialog.HandleNext` | components/project-dialog.tsx:44-47 | Next moves to the following project, keeps the index in range, and collapses every section |
| `ProjectDialog.HandlePrev` | components/project-dialog.tsx:49-52 | Prev moves to the preceding project, keeps the index in range, and collapses every section |
| `ProjectDialog.ToggleSection` | components/project-dialog.tsx:54-56 | a section's header collapses it when it is the expanded one, and otherwise expands it alone; the project is unchanged |
| `ProjectDialog.ToggleLaws` | components/project-dialog.tsx:54-74 | from collapsed, toggling a section twice collapses it again, and toggling a second section shows only that one |
| `ProjectDialog.CurrentProject` | components/project-dialog.tsx:58 | the project shown is an element of the list |
| `ProjectDialog.CounterOf` | components/project-dialog.tsx:203-205 | the counter shows the current index plus one, a 1-based position within the total number of projects |
| `ProjectDialog.CounterNamesShownProject` | components/project-dialog.tsx:203-205 | the counter's position, counted from one, is the place in the list of the project on screen |
| `ProjectDialog.CounterFollowsNavigation` | components/project-dialog.tsx:194-213 | Next advances the counter by one, wrapping from the last position to 1, and Prev and Next undo each other |
| `ProjectDialog.ClicksStayInRange` | components/project-dialog.tsx:44-56 | any sequence of clicks and resizes keeps a valid project index valid |
| `ProjectGallery.Initial` | app/projects/page.tsx:94 | the gallery starts on the first project |
| `ProjectGallery.HandleNext` | app/projects/page.tsx:96-98 | the right arrow moves forward with wrap-around and stays in range |
| `ProjectGallery.HandlePrev` | app/projects/page.tsx:100-102 | the left arrow moves back with wrap-around and stays in range |
| `ProjectGallery.SelectDot` | app/projects/page.tsx:169-172 | clicking dot `k` makes project `k` current |
| `ProjectGallery.RenderedFrom` | app/projects/page.tsx:119-120 | the projects rendered are those whose index equals the current one: just that one when it is in range, none otherwise |
| `ProjectGallery.RenderedIsCurrent` | app/projects/page.tsx:118-120 | over the whole list, exactly the current project is rendered |
| `ProjectGallery.ActiveDotIsRendered` | app/projects/page.tsx:169-173 | the dot drawn as active is the one whose project is rendered, and clicking a dot makes it the active one |
| `ProjectGallery.ArrowsCoincideForTwo` | app/projects/page.tsx:96-102 | with two projects, both arrows switch to the other project |
| `ProjectGallery.ClicksShowOneProject` | app/projects/page.tsx:94-172 | from a valid index, any sequence of arrow and dot clicks leaves exactly one project rendered |
| `RotatingText.Initial` | components/useRotatingText.ts:4-5 | rotation starts at the first phrase, visible |
| `RotatingText.FadeOut` | components/useRotatingText.ts:9 | the first half of a tick hides the phrase without moving the index |
| `RotatingText.Commit` | components/useRotatingText.ts:10-13 | the second half shows the next phrase, wrapping from the last to the first and staying in range |
| `RotatingText.CurrentPhrase` | components/useRotatingText.ts:21 | the phrase returned is one of the phrases |
| `RotatingText.Ticks` | components/useRotatingText.ts:8-16 | repeated ticks keep the index within the phrases |
| `RotatingText.TicksAdvance` | components/useRotatingText.ts:8-16 | after `k` ticks the index has advanced `k` places around the phrases and the phrase is visible |
| `RotatingText.FullRotation` | components/useRotatingText.ts:11 | after as many ticks as there are phrases, the rotation is back in its initial state |
| `RotatingText.HeroPhraseAfter` | components/heroSection.tsx:96-102 | on the landing page, the `k`-th tick shows hero phrase `k mod 4` |
| `NavItems.SectionIds` | components/heroSection.tsx:89-94 | the four labels address the sections `home`, `about`, `projects` and `contact` |
| `NavItems.LowerWord` | components/navbar.tsx:37 | a word lowers to the string that agrees with it letter by lowered letter |
| `NavItems.SectionIdsDistinct` | components/heroSection.tsx:89-94 | different labels address different sections |
| `HeroSection.Initial` | components/heroSection.tsx:79-82 | the page starts unscrolled with the menu and the dialog closed and `home` active |
| `HeroSection.FirstMatchFrom` | components/heroSection.tsx:108-114 | the search returns the first nav item whose section is mounted and straddles the line 100 pixels down, or none when no item does |
| `HeroSection.HandleScroll` | components/heroSection.tsx:105-119 | the header looks scrolled exactly when `scrollY > 10`. The first straddling section, in Home/About/Projects/Contact order, becomes active by its lower-cased name. With no match the active section is unchanged. Menu and dialog are untouched |
| `HeroSection.AtMostOneHighlighted` | components/heroSection.tsx:165 | in every state at most one nav button is highlighted |
| `HeroSection.ScrollHighlightsFirstMatch` | components/heroSection.tsx:105-165 | after a scroll with a straddling section, exactly the first such section's button is highlighted |
| `HeroSection.ScrollToSection` | components/heroSection.tsx:125-132 | a mounted section is scrolled to its top plus the page offset minus 80 pixels. Nothing is scrolled to when the ref is unset. The mobile menu closes in both cases |
| `HeroSection.ToggleMenu` | components/heroSection.tsx:189 | the menu button flips the mobile menu and changes nothing else |
| `HeroSection.OpenModal` | components/heroSection.tsx:180 | every "Hire Me" button opens the dialog and changes nothing else |
| `HeroSection.CloseModal` | components/heroSection.tsx:349 | the dialog's `onClose` closes it and changes nothing else |
| `HeroSection.TogglesUndo` | components/heroSection.tsx:189 | two menu toggles restore the state, and opening then closing the dialog restores a closed one |
| `Navbar.Initial` | components/navbar.tsx:9-10 | the navbar starts unscrolled with the menu closed |
| `Navbar.HandleScroll` | components/navbar.tsx:13-15 | the navbar looks scrolled exactly when `scrollY > 10`, and the menu is untouched |
| `Navbar.ToggleMenu` | components/navbar.tsx:56 | the menu button flips the mobile menu |
| `Navbar.CloseMenu` | components/navbar.tsx:72 | a mobile link or the mobile "Hire Me" button closes the menu |
| `Navbar.HrefsAddressSections` | components/navbar.tsx:37 | each link is `#` followed by its section's lower-cased name, and no two links share a target |
| `Navbar.LinkHidesPanel` | components/navbar.tsx:64-81 | after a mobile link the panel is hidden, and the menu button shows it exactly when it was hidden |
| `ProjectCard.Mount` | components/ProjectCard.tsx:104-109 | a card mounts with its dialog closed. The dialog, rendered at once, takes its position from `findIndex` and no section is expanded |
| `ProjectCard.ViewMore` | components/ProjectCard.tsx:97 | "View More" opens the dialog and leaves its state as it was |
| `ProjectCard.CloseDialog` | components/ProjectCard.tsx:106 | the dialog's `onClose` closes it and leaves its state as it was |
| `ProjectCard.DialogNext` | components/project-dialog.tsx:44-47 | Next inside a card's dialog moves the dialog's position and nothing else of the card |
| `ProjectCard.FindIndexFrom` | components/ProjectCard.tsx:108 | the search from a position returns the first later position holding the id, or -1 exactly when none does |
| `ProjectCard.InitialProjectIndex` | components/ProjectCard.tsx:108 | `initialProjectIndex` is the least index whose project has the card's id, and is -1 exactly when no project has it |
| `ProjectCard.FirstViewOpensOnCard` | components/ProjectCard.tsx:104-109 | the first "View More" after mounting opens the dialog on the first project carrying the card's id |
| `ProjectCard.ReopenShowsLastViewed` | components/project-dialog.tsx:33 | `useState` reads `initialProjectIndex` only at mount, so closing and reopening shows the dialog as it was left |
| `ProjectCard.ReopenAfterNextShowsOtherProject` | components/project-dialog.tsx:33 | over two projects, the first card's dialog moved on with Next, closed and reopened shows the second project, not the card's own |

## Left out

- Rendering, styling, framer-motion animation, smooth scrolling, toasts' display timing and the 3D background scene are not modelled; only the state they read is.
- React effects and timers are not modelled as such. The welcome message is part of `RasaChat.Mounted`. The rotating text's interval and 500 ms timeout are the `FadeOut`/`Commit` steps. Scroll and resize listeners are `HandleScroll` and `Resized`, called with the measured values.
- `fetch`, the chat-completion SDK, the mail transport, `console` logging and environment variables are inputs or omitted: each call's result is an outcome parameter, and `EMAIL_USER` is a parameter.
- `uuidv4()` values are left abstract as "the n-th draw"; nothing is claimed about their uniqueness.
- RasaChat.Settle: a reply element whose `text` is not a string, and a JSON body that is a string, number or boolean, are not modelled. Reply texts are strings, and a body is an array of replies, an object or `null`.
- FloatingChat.ReplyEntry: a JSON `null` body is not modelled. Reading `data.reply` of `null` throws a TypeError with an engine-specific message, so it belongs to the `Threw(ErrorObject(..))` case with that message. Non-string `reply` or `error` values (objects, numbers) are also left out.
- ChatRoute.Post: when the SDK returns no choices, the error text is V8's wording for the TypeError. Other engines word it differently.
- ChatFlow.TurnThroughRoute: a response whose handler let an exception escape is not connected to the widget. The framework's error page does not parse as JSON, so the widget sees a thrown `SyntaxError` with an engine-specific message.
- ChatRoute.BuildRequest: a `message` that is a number, boolean, array or object is not modelled. The route forwards it unchanged as `content`, and only the widgets, which always send strings, are modelled as callers.
- ContactRoute.BuildMail: a `name`, `email`, `company` or `message` that is a number, boolean, array or object is not modelled. The route prints it in the subject and text as JavaScript does (digits, `true`, `[object Object]`); the dialog always sends strings.
- A reply that arrives after a widget has been closed is not modelled: React drops state updates to an unmounted component.
- A project list of length zero, where `%` gives `NaN`, is not modelled: every list on the site is a non-empty constant, so `Carousel.Next` and `Carousel.Prev` require at least one item. A card id missing from the list gives `initialProjectIndex` = -1 and an undefined current project. `ProjectCard.InitialProjectIndex` states the -1, and the dialog's rendering of it is not modelled.
- Pixel positions, `scrollY` and `pageYOffset` are integers; the browser's fractional values are not modelled.
- `toLowerCase` is modelled for ASCII only. The navigation labels are ASCII constants, for which this is exact.
- `HireMe.HandleChange` takes one of the four form fields. An input with any other `name` would add a fifth property; the form has no such input.
- Whether the browser accepts the text of the `type="email"` field is a parameter of `HireMe.Submit`. The address syntax the browser checks, and the whitespace it strips from an email value, are not modelled. The `required` checks are modelled as "not empty".
- `components/about.tsx`, `components/ContactSection.tsx`, `components/ui/ThemeContext.tsx`, the 3D scene components and the particle hooks are not part of this model. They are static content, commented-out code or per-frame rendering.

=== FILE: carousel.dfy ===
/**
  The wrap-around index arithmetic shared by the project dialog, the project
  gallery and the rotating hero text: `(i + 1) % n` and `(i - 1 + n) % n`
  with JavaScript's `%`.
 */
module Carousel {
  import opened JsRuntime

  /** `(i + 1) % n`: one step forward, wrapping from the last item to the first. */
  function Next(i: int, n: int): (r: int)
    requires n > 0
    ensures 0 <= i < n ==> 0 <= r < n
    ensures 0 <= i < n ==> r == (if i == n - 1 then 0 else i + 1)
  {
    if 0 <= i < n - 1 then
      ModOfMultiple(0, n, i + 1);
      JsRem(i + 1, n)
    else if i == n - 1 then
      ModOfMultiple(1, n, 0);
      JsRem(i + 1, n)
    else
      JsRem(i + 1, n)
  }

  /** `(i - 1 + n) % n`: one step back, wrapping from the first item to the last. */
  function Prev(i: int, n: int): (r: int)
    requires n > 0
    ensures 0 <= i < n ==> 0 <= r < n
    ensures 0 <= i < n ==> r == (if i == 0 then n - 1 else i - 1)
  {
    if 0 < i < n then
      ModOfMultiple(1, n, i - 1);
      JsRem(i - 1 + n, n)
    else if i == 0 then
      ModOfMultiple(0, n, n - 1);
      JsRem(i - 1 + n, n)
    else
      JsRem(i - 1 + n, n)
  }

  /** Going back undoes going forward, and going forward undoes going back. */
  lemma NextPrevInverse(i: int, n: int)
    requires 0 <= i < n
    ensures Prev(Next(i, n), n) == i
    ensures Next(Prev(i, n), n) == i
  {
  }

  /** With two items, forward and back land on the same item. */
  lemma TwoItemsCoincide(i: int)
    requires 0 <= i < 2
    ensures Next(i, 2) == Prev(i, 2)
  {
  }

  /** `k` forward steps from `i`. */
  function Advance(i: int, k: nat, n: int): int
    requires n > 0
  {
    if k == 0 then i else Next(Advance(i, k - 1, n), n)
  }

  /** A product with a factor of at least one is at least the other factor. */
  lemma {:induction false} ProductAtLeast(d: int, n: int)
    requires d >= 1 && n > 0
    ensures d * n >= n
  {
    if d > 1 {
      ProductAtLeast(d - 1, n);
      assert d * n == (d - 1) * n + n;
    }
  }

  /** Dividing `q * n + r` by `n` leaves `r` when `r` is a remainder already. */
  lemma ModOfMultiple(q: int, n: int, r: int)
    requires n > 0 && 0 <= r < n
    ensures (q * n + r) % n == r
  {
    var a := q * n + r;
    var q', r' := a / n, a % n;
    assert q' * n + r' == q * n + r;
    assert (q - q') * n == q * n - q' * n;
    if q - q' >= 1 {
      ProductAtLeast(q - q', n);
    } else if q' - q >= 1 {
      ProductAtLeast(q' - q, n);
    }
  }

  /** Adding one to a number moves its remainder one step forward, wrapping at `n`. */
  lemma ModStep(a: int, n: int)
    requires n > 0
    ensures (a + 1) % n == (if a % n == n - 1 then 0 else a % n + 1)
  {
    var q, m := a / n, a % n;
    var qn := q * n;
    assert a == qn + m;
    if m == n - 1 {
      assert (q + 1) * n == qn + n;
      ModOfMultiple(q + 1, n, 0);
    } else {
      ModOfMultiple(q, n, m + 1);
    }
  }

  /** `k` steps forward from an index in range is offset addition modulo `n`. */
  lemma {:induction false} AdvanceIsOffset(i: int, k: nat, n: int)
    requires 0 <= i < n
    ensures Advance(i, k, n) == (i + k) % n
  {
    if k == 0 {
      ModOfMultiple(0, n, i);
    } else {
      AdvanceIsOffset(i, k - 1, n);
      ModStep(i + k - 1, n);
    }
  }

  /** Moving on by fewer than `n` places always changes the remainder. */
  lemma ModShiftChanges(a: int, d: int, n: int)
    requires n > 0 && 0 < d < n
    ensures (a + d) % n != a % n
  {
    var q, r := a / n, a % n;
    var qn := q * n;
    assert a == qn + r;
    if r + d < n {
      ModOfMultiple(q, n, r + d);
    } else {
      assert (q + 1) * n == qn + n;
      ModOfMultiple(q + 1, n, r + d - n);
    }
  }

  /** `n` forward steps come back to the start. */
  lemma FullCycle(i: int, n: int)
    requires 0 <= i < n
    ensures Advance(i, n, n) == i
  {
    AdvanceIsOffset(i, n, n);
    ModOfMultiple(1, n, i);
  }

  /** Before coming back, the first `n` steps visit `n` different items. */
  lemma CycleVisitsDistinct(i: int, n: int)
    requires 0 <= i < n
    ensures forall j, k :: 0 <= j < k < n ==> Advance(i, j, n) != Advance(i, k, n)
  {
    forall j, k | 0 <= j < k < n
      ensures Advance(i, j, n) != Advance(i, k, n)
    {
      AdvanceIsOffset(i, j, n);
      AdvanceIsOffset(i, k, n);
      ModShiftChanges(i + j, k - j, n);
    }
  }
}

=== FILE: chat_flow.dfy ===
/**
  One turn end to end: the string chat widget posts its input to the chat
  route, and reads the route's response back into a conversation entry.
 */
module ChatFlow {
  import opened JsRuntime
  import opened Http
  import FloatingChat
  import ChatRoute

  /**
    What the widget's `response.ok` and `response.json()` see of a response
    the route returned; a property that was `undefined` is dropped by the JSON
    encoding and reads back as missing.
   */
  function ClientOutcome(r: Response): FloatingChat.Outcome {
    var body :=
      match r.body
      case ReplyBody(reply) => FloatingChat.ReplyBody(reply, Missing)
      case ErrorBody(e) => FloatingChat.ReplyBody(Missing, Text(e))
      case MessageBody(_) => FloatingChat.ReplyBody(Missing, Missing);
    if 200 <= r.status < 300 then FloatingChat.Ok(body) else FloatingChat.NotOk(body)
  }

  /**
    A valid submit sends its raw input as the one user message of the
    completion request, and the entry the widget then appends is the first
    choice's content after `Bot: `, or the route's error text after `Error: `.
   */
  lemma {:induction false} TurnThroughRoute(s: FloatingChat.ChatState, upstream: ChatRoute.Upstream)
    requires !IsBlank(s.input)
    ensures var b := FloatingChat.Begin(s);
      && b.request.Some?
      && var t := ChatRoute.Post(Parsed(Text(b.request.value.message)), upstream);
      && t.sent == Some(ChatRoute.CompletionRequest(ChatRoute.Model, [ChatRoute.ChatMessage("user", Text(s.input))]))
      && t.result.Responded?
      && var entry := FloatingChat.ReplyEntry(ClientOutcome(t.result.response));
      && (upstream.Completed? && |upstream.choices| > 0 ==>
            entry == FloatingChat.BotPrefix + Render(upstream.choices[0].content))
      && (upstream.Completed? && |upstream.choices| == 0 ==>
            entry == FloatingChat.ErrorPrefix + ChatRoute.NoChoiceError)
      && (upstream.Threw? && upstream.description != "" ==>
            entry == FloatingChat.ErrorPrefix + upstream.description)
      && (upstream.Threw? && upstream.description == "" ==>
            entry == FloatingChat.ErrorPrefix + FloatingChat.DefaultError)
  {
    var b := FloatingChat.Begin(s);
    var t := ChatRoute.Post(Parsed(Text(b.request.value.message)), upstream);
    var q := ChatRoute.BuildRequest(Text(s.input));
    assert q.messages == [ChatRoute.ChatMessage("user", Text(s.input))];
  }
}

=== FILE: chat_route.dfy ===
/**
  The `POST /api/chat` handler: it forwards the one `message` of the request
  body, as the whole conversation, to the chat-completion SDK and turns the
  first choice, or the thrown error, into its own JSON response.
 */
module ChatRoute {
  import opened JsRuntime
  import opened Http

  const Model := "GPT-4o"

  datatype ChatMessage = ChatMessage(role: string, content: JsField)

  /** The argument of `openai.chat.completions.create`. */
  datatype CompletionRequest = CompletionRequest(model: string, messages: seq<ChatMessage>)

  /** One returned choice: its `message.content`. */
  datatype Choice = Choice(content: JsField)

  /** What the SDK call did: returned its choices, or threw an error whose `${error}` text is given. */
  datatype Upstream = Completed(choices: seq<Choice>) | Threw(description: string)

  /**
    `${error}` for the TypeError that `response.choices[0].message` raises
    when no choice came back, in the wording of the V8 engine.
   */
  const NoChoiceError := "TypeError: Cannot read properties of undefined (reading 'message')"

  /** The SDK request the handler sent, if any, and what it produced. */
  datatype Trace = Trace(sent: Option<CompletionRequest>, result: Handled)

  /** The completion request for one user message: nothing is validated and no history is added. */
  function BuildRequest(message: JsField): (q: CompletionRequest)
    ensures q.model == Model
    ensures |q.messages| == 1
    ensures q.messages[0].role == "user" && q.messages[0].content == message
  {
    CompletionRequest(Model, [ChatMessage("user", message)])
  }

  /**
    The handler. The body is parsed and destructured before the `try`, so a
    body that does not parse, or parses to `null`, escapes and no request is
    sent; everything after it is caught.
   */
  function Post(body: Incoming<JsField>, upstream: Upstream): (t: Trace)
    ensures body.Malformed? <==> t.sent.None?
    ensures body.Malformed? <==> t.result.Escaped?
    ensures body.Parsed? ==> t.sent == Some(BuildRequest(body.value))
    ensures body.Parsed? && upstream.Completed? && |upstream.choices| > 0 ==>
      t.result.response == Response(DefaultStatus, ReplyBody(upstream.choices[0].content))
    ensures body.Parsed? && upstream.Completed? && |upstream.choices| == 0 ==>
      t.result.response == Response(500, ErrorBody(NoChoiceError))
    ensures body.Parsed? && upstream.Threw? ==>
      t.result.response == Response(500, ErrorBody(upstream.description))
  {
    match body
    case Malformed => Trace(None, Escaped)
    case Parsed(message) =>
      var request := BuildRequest(message);
      var response :=
        match upstream
        case Completed(choices) =>
          if |choices| == 0 then Response(500, ErrorBody(NoChoiceError))
          else Response(DefaultStatus, ReplyBody(choices[0].content))
        case Threw(description) => Response(500, ErrorBody(description));
      Trace(Some(request), Responded(response))
  }

  /** Every normalised response is a `{reply}` with status 200 or an `{error}` with status 500, never both. */
  lemma ResponseShapes(body: Incoming<JsField>, upstream: Upstream)
    requires body.Parsed?
    ensures var r := Post(body, upstream).result.response;
      && (r.body.ReplyBody? <==> r.status == 200)
      && (r.body.ErrorBody? <==> r.status == 500)
      && (r.body.ReplyBody? <==> upstream.Completed? && |upstream.choices| > 0)
  {
  }
}

=== FILE: chatbot.dfy ===
/**
  The floating chat widget that talks to a Rasa server: the conversation state
  of `ChatbotUI` (typed messages from the user, the bot, or an error), the
  synchronous first half of a submit, the settling of the request once its
  outcome is known, and the outer open/close state of `FloatingChatbot`.
 */
module RasaChat {
  import opened JsRuntime

  datatype Sender = User | Bot | ErrorSender

  /** The welcome message has a fixed id; every other id is the value of the `draw`-th `uuidv4()` call, left abstract. */
  datatype MessageId = Fixed(text: string) | Uuid(draw: nat)

  datatype Message = Message(id: MessageId, sender: Sender, content: string)

  /** `messages`, `input` and `isLoading`, plus how many ids have been drawn so far. */
  datatype ChatState = ChatState(messages: seq<Message>, input: string, isLoading: bool, draws: nat)

  const WelcomeText := "Hey! I'm Shreyas's AI assistant. Ask me anything about his skills, projects, or experience."
  const ServerErrorText := "Something went wrong on the server."
  const ConnectErrorText := "Could not connect to the bot. Is the Rasa server running?"
  const Welcome := Message(Fixed("welcome-0"), Bot, WelcomeText)

  /** The JSON body `{sender: "user", message}` posted to the Rasa endpoint. */
  datatype RasaRequest = RasaRequest(sender: string, message: string)

  /**
    The parsed Rasa response: an array of `{text}` objects, some other object
    (whose `error` property is read on failure), or `null`.
   */
  datatype RasaBody = Replies(texts: seq<string>) | Object(error: JsField) | NullBody

  /** How the request settled: a response with `response.ok` true or false, or an exception from `fetch` or `response.json()`. */
  datatype Outcome = Ok(body: RasaBody) | NotOk(body: RasaBody) | Thrown(description: string)

  /** The state once the component has mounted and its first effect has run. */
  function Mounted(): (s: ChatState)
    ensures s.messages == [Welcome] && s.messages[0].id == Fixed("welcome-0")
    ensures s.input == "" && !s.isLoading
  {
    ChatState([Welcome], "", false, 0)
  }

  /** The input's `onChange`. */
  function SetInput(s: ChatState, value: string): (r: ChatState)
    ensures r.input == value
    ensures r.messages == s.messages && r.isLoading == s.isLoading && r.draws == s.draws
  {
    s.(input := value)
  }

  /** The typing indicator is rendered. */
  predicate TypingShown(s: ChatState) {
    s.isLoading
  }

  /** The text field is disabled. */
  predicate InputDisabled(s: ChatState) {
    s.isLoading
  }

  /** The send button is disabled. */
  predicate SubmitDisabled(s: ChatState) {
    s.isLoading || Trim(s.input) == ""
  }

  datatype Begun = Begun(state: ChatState, request: Option<RasaRequest>)

  /** The synchronous part of `handleMessageSubmit`, up to the `fetch` it issues. */
  function Begin(s: ChatState): (b: Begun)
    ensures IsBlank(s.input) || s.isLoading ==> b == Begun(s, None)
    ensures !IsBlank(s.input) && !s.isLoading ==>
      && b.request == Some(RasaRequest("user", s.input))
      && b.state.messages == s.messages + [Message(Uuid(s.draws), User, s.input)]
      && b.state.input == ""
      && b.state.isLoading
      && b.state.draws == s.draws + 1
  {
    if Trim(s.input) == "" || s.isLoading then
      Begun(s, None)
    else
      var user := Message(Uuid(s.draws), User, s.input);
      Begun(ChatState(s.messages + [user], "", true, s.draws + 1), Some(RasaRequest("user", s.input)))
  }

  /** `response.ok && rasaResponse && rasaResponse.length > 0`. */
  predicate HasReplies(o: Outcome) {
    o.Ok? && o.body.Replies? && |o.body.texts| > 0
  }

  /** One bot message per reply text, with ids drawn from `draws` on. */
  function BotMessages(texts: seq<string>, draws: nat): (ms: seq<Message>)
    ensures |ms| == |texts|
    ensures forall j :: 0 <= j < |ms| ==> ms[j] == Message(Uuid(draws + j), Bot, texts[j])
  {
    seq(|texts|, j requires 0 <= j < |texts| => Message(Uuid(draws + j), Bot, texts[j]))
  }

  /** The text of the error message when the outcome carries no replies. */
  function ErrorContent(o: Outcome): string
    requires !HasReplies(o)
  {
    if o.Thrown? || o.body.NullBody? then
      // reading `.error` of `null` throws inside the `try`, landing in the `catch`
      ConnectErrorText
    else if o.body.Object? then
      OrElse(o.body.error, ServerErrorText)
    else
      // an array has no `error` property
      ServerErrorText
  }

  /** The `await` continuation of `handleMessageSubmit` through its `finally`. */
  function Settle(s: ChatState, o: Outcome): (r: ChatState)
    ensures !r.isLoading && r.input == s.input
    ensures |r.messages| > |s.messages| && r.messages[..|s.messages|] == s.messages
    ensures HasReplies(o) ==>
      && |r.messages| == |s.messages| + |o.body.texts|
      && forall j :: 0 <= j < |o.body.texts| ==>
           r.messages[|s.messages| + j].sender == Bot && r.messages[|s.messages| + j].content == o.body.texts[j]
    ensures (o.Thrown? || o.body.NullBody?) ==>
      r.messages == s.messages + [Message(Uuid(s.draws), ErrorSender, ConnectErrorText)]
    ensures !o.Thrown? && o.body.Object? && !HasReplies(o) ==>
      && r.messages == s.messages + [Message(Uuid(s.draws), ErrorSender, r.messages[|s.messages|].content)]
      && (Truthy(o.body.error) ==> r.messages[|s.messages|].content == o.body.error.s)
      && (!Truthy(o.body.error) ==> r.messages[|s.messages|].content == ServerErrorText)
    ensures !o.Thrown? && o.body.Replies? && !HasReplies(o) ==>
      r.messages == s.messages + [Message(Uuid(s.draws), ErrorSender, ServerErrorText)]
  {
    if HasReplies(o) then
      var bots := BotMessages(o.body.texts, s.draws);
      ChatState(s.messages + bots, s.input, false, s.draws + |bots|)
    else
      var err := Message(Uuid(s.draws), ErrorSender, ErrorContent(o));
      ChatState(s.messages + [err], s.input, false, s.draws + 1)
  }

  /** Whatever the outcome, a settle never yields a user message, and the description of a thrown error is not shown. */
  lemma SettleAddsNoUserMessage(s: ChatState, o: Outcome, j: int)
    requires |s.messages| <= j < |Settle(s, o).messages|
    ensures Settle(s, o).messages[j].sender != User
    ensures o.Thrown? ==> Settle(s, o).messages[j].content == ConnectErrorText
  {
  }

  /** The send button is disabled exactly when a submit would change nothing and send nothing. */
  lemma SubmitDisabledIffNoop(s: ChatState)
    ensures SubmitDisabled(s) <==> Begin(s).request.None?
    ensures SubmitDisabled(s) <==> Begin(s).state == s
  {
  }

  /**
    The typing indicator and the disabled field appear exactly when a submit
    issues a request, and disappear once it settles.
   */
  lemma TypingWhileInFlight(s: ChatState, o: Outcome)
    ensures TypingShown(Begin(s).state) <==> s.isLoading || Begin(s).request.Some?
    ensures !s.isLoading ==> (InputDisabled(Begin(s).state) <==> !SubmitDisabled(s))
    ensures !TypingShown(Settle(s, o)) && !InputDisabled(Settle(s, o))
  {
  }

  /** One valid submit and its settle append the user's message and then either all replies or one error. */
  lemma {:induction false} OneTurn(s: ChatState, o: Outcome)
    requires !IsBlank(s.input) && !s.isLoading
    ensures var r := Settle(Begin(s).state, o);
      && r.messages[..|s.messages|] == s.messages
      && r.messages[|s.messages|] == Message(Uuid(s.draws), User, s.input)
      && (HasReplies(o) ==> |r.messages| == |s.messages| + 1 + |o.body.texts|)
      && (!HasReplies(o) ==> |r.messages| == |s.messages| + 2 && r.messages[|s.messages| + 1].sender == ErrorSender)
      && (forall j :: |s.messages| < j < |r.messages| ==> r.messages[j].sender != User)
      && r.input == "" && !r.isLoading
  {
    var b := Begin(s).state;
    var r := Settle(b, o);
    assert r.messages[..|b.messages|] == b.messages;
    assert b.messages[..|s.messages|] == s.messages;
    assert r.messages[..|s.messages|] == r.messages[..|b.messages|][..|s.messages|];
    forall j | |s.messages| < j < |r.messages|
      ensures r.messages[j].sender != User
    {
      SettleAddsNoUserMessage(b, o, j);
    }
  }

  /** What happens in the widget's session: the user types, submits, or a request settles. */
  datatype Event = Typed(value: string) | Submitted | Settled(outcome: Outcome)

  /** The chat state together with the number of requests in flight. */
  datatype Session = Session(chat: ChatState, inFlight: nat)

  /**
    One event. Typing into the disabled field does nothing; a settle only
    arrives for a request that was issued.
   */
  function Step(ss: Session, e: Event): Session {
    match e
    case Typed(v) =>
      if InputDisabled(ss.chat) then ss else ss.(chat := SetInput(ss.chat, v))
    case Submitted =>
      var b := Begin(ss.chat);
      Session(b.state, if b.request.Some? then ss.inFlight + 1 else ss.inFlight)
    case Settled(o) =>
      if ss.inFlight == 0 then ss else Session(Settle(ss.chat, o), ss.inFlight - 1)
  }

  function Run(ss: Session, es: seq<Event>): Session
    decreases |es|
  {
    if es == [] then ss else Run(Step(ss, es[0]), es[1..])
  }

  /** At most one request is in flight, exactly while the chat is loading. */
  ghost predicate SingleFlight(ss: Session) {
    ss.inFlight <= 1 && (ss.inFlight == 1 <==> ss.chat.isLoading)
  }

  /** From any single-flight session, every run stays single-flight and only appends messages. */
  lemma {:induction false} RunKeepsSingleFlight(ss: Session, es: seq<Event>)
    requires SingleFlight(ss)
    ensures SingleFlight(Run(ss, es))
    ensures |Run(ss, es).chat.messages| >= |ss.chat.messages|
    ensures Run(ss, es).chat.messages[..|ss.chat.messages|] == ss.chat.messages
    decreases |es|
  {
    if es != [] {
      var next := Step(ss, es[0]);
      assert |next.chat.messages| >= |ss.chat.messages|;
      assert next.chat.messages[..|ss.chat.messages|] == ss.chat.messages;
      RunKeepsSingleFlight(next, es[1..]);
      var fin := Run(next, es[1..]);
      assert fin.chat.messages[..|ss.chat.messages|] == fin.chat.messages[..|next.chat.messages|][..|ss.chat.messages|];
    }
  }

  /** A freshly mounted chat starts with nothing in flight. */
  lemma MountedIsSingleFlight()
    ensures SingleFlight(Session(Mounted(), 0))
  {
  }

  /** The outer component: the button alone, or the open chat panel with its own conversation. */
  datatype Widget = Closed | Open(chat: ChatState)

  /** The floating button, rendered only while closed; opening mounts a fresh `ChatbotUI`. */
  function OpenWidget(w: Widget): (r: Widget)
    ensures r.Open?
    ensures w.Closed? ==> r.chat == Mounted()
    ensures w.Open? ==> r == w
  {
    if w.Closed? then Open(Mounted()) else w
  }

  /** The close button inside the panel; unmounting discards the conversation. */
  function CloseWidget(w: Widget): (r: Widget)
    ensures r.Closed?
  {
    Closed
  }

  /** A mousedown anywhere: it closes the open panel when it lands outside it. */
  function MouseDown(w: Widget, insidePanel: bool): (r: Widget)
    ensures r.Closed? <==> w.Closed? || !insidePanel
    ensures r.Open? ==> r == w
  {
    if w.Open? && !insidePanel then Closed else w
  }

  /** Closing and reopening shows only the welcome message, whatever was said before. */
  lemma ReopenStartsOver(w: Widget, insidePanel: bool)
    requires w.Open? && !insidePanel
    ensures OpenWidget(MouseDown(w, insidePanel)).chat.messages == [Welcome]
    ensures OpenWidget(CloseWidget(w)).chat.messages == [Welcome]
  {
  }
}

=== FILE: contact_flow.dfy ===
/**
  The contact form end to end: the "Hire Me" dialog posts its form data to
  the contact route, and reacts to the route's response.
 */
module ContactFlow {
  import opened JsRuntime
  import opened Http
  import HireMe
  import ContactRoute

  /** `JSON.stringify(formData)` as the route reads it back: four strings. */
  function RequestBody(f: HireMe.FormData): ContactRoute.ContactForm {
    ContactRoute.ContactForm(Text(f.name), Text(f.email), Text(f.company), Text(f.message))
  }

  /** What the dialog's `fetch` sees of the route's outcome: an escaped exception still yields an error status. */
  function DialogOutcome(h: Handled): HireMe.SubmitOutcome {
    match h
    case Responded(r) => HireMe.Answered(200 <= r.status < 300)
    case Escaped => HireMe.Answered(false)
  }

  /**
    Pressing "Send Message": a form the browser rejects posts nothing. A form
    it accepts mails the form's own values, with the submitter as sender;
    the dialog resets and closes exactly when the mail was delivered, and
    otherwise keeps what the visitor typed. The mail text reads back as the
    form whenever name, email and company hold no line break.
   */
  lemma {:induction false} SubmitThroughRoute(f: HireMe.FormData, emailAccepted: bool, emailUser: JsField, send: ContactRoute.SendResult)
    ensures var t := ContactRoute.Post(Parsed(RequestBody(f)), emailUser, send);
      && var r := HireMe.Submit(f, emailAccepted, DialogOutcome(t.result));
      && (r.None? <==> !HireMe.Submittable(f, emailAccepted))
      && (r.Some? ==>
            && t.sent.Some?
            && t.sent.value.from == Text(f.email)
            && t.sent.value.subject == ContactRoute.SubjectPrefix + f.name
            && (send.Delivered? <==> r.value.closeCalls == 1)
            && (send.Delivered? ==> r.value.form == HireMe.EmptyForm())
            && (send.Failed? ==> r.value.form == f && r.value.toast.destructive)
            && ('\n' !in f.name && '\n' !in f.email && '\n' !in f.company ==>
                  ContactRoute.ParseMailText(t.sent.value.text)
                    == Some(ContactRoute.MailFields(f.name, f.email, f.company, f.message))))
  {
    var t := ContactRoute.Post(Parsed(RequestBody(f)), emailUser, send);
    var m := t.sent.value;
    assert m.subject == m.subject[..|ContactRoute.SubjectPrefix|] + m.subject[|ContactRoute.SubjectPrefix|..];
    if '\n' !in f.name && '\n' !in f.email && '\n' !in f.company {
      ContactRoute.MailTextRoundTrip(RequestBody(f), emailUser);
    }
  }
}

=== FILE: contact_route.dfy ===
/**
  The `POST /api/contact` handler: it formats the submitted form as a mail
  for the configured address and reports whether the transport sent it.
 */
module ContactRoute {
  import opened JsRuntime
  import opened Http

  /** The four properties read from the request body. */
  datatype ContactForm = ContactForm(name: JsField, email: JsField, company: JsField, message: JsField)

  /** The `mailOptions` handed to the transport. */
  datatype MailOptions = MailOptions(from: JsField, to: JsField, subject: string, text: string)

  /** Whether `transporter.sendMail` resolved or threw. */
  datatype SendResult = Delivered | Failed

  const SubjectPrefix := "New Contact Form Submission from "
  const SentMessage := "Message sent successfully."
  const FailedMessage := "Failed to send message."

  /** The mail for a form, addressed from the submitter to `emailUser` (the `EMAIL_USER` setting, possibly unset). */
  function BuildMail(f: ContactForm, emailUser: JsField): (m: MailOptions)
    ensures m.from == f.email && m.to == emailUser
    ensures StartsWith(m.subject, SubjectPrefix) && m.subject[|SubjectPrefix|..] == Render(f.name)
    ensures m.text == "Name: " + Render(f.name) + "\nEmail: " + Render(f.email)
                    + "\nCompany: " + Render(f.company) + "\nMessage: " + Render(f.message)
  {
    MailOptions(
      f.email,
      emailUser,
      SubjectPrefix + Render(f.name),
      "Name: " + Render(f.name) + "\nEmail: " + Render(f.email)
        + "\nCompany: " + Render(f.company) + "\nMessage: " + Render(f.message))
  }

  /** The mail the handler passed to the transport, if any, and what it produced. */
  datatype Trace = Trace(sent: Option<MailOptions>, result: Handled)

  /**
    The handler. No field is validated. The body is parsed and destructured
    before the `try`, so a body that does not parse, or parses to `null`,
    escapes and no mail is sent.
   */
  function Post(body: Incoming<ContactForm>, emailUser: JsField, send: SendResult): (t: Trace)
    ensures body.Malformed? <==> t.sent.None?
    ensures body.Malformed? <==> t.result.Escaped?
    ensures body.Parsed? ==> t.sent == Some(BuildMail(body.value, emailUser))
    ensures body.Parsed? && send.Delivered? ==> t.result.response == Response(200, MessageBody(SentMessage))
    ensures body.Parsed? && send.Failed? ==> t.result.response == Response(500, ErrorBody(FailedMessage))
  {
    match body
    case Malformed => Trace(None, Escaped)
    case Parsed(form) =>
      var mail := BuildMail(form, emailUser);
      Trace(Some(mail), Responded(
        if send.Delivered? then Response(200, MessageBody(SentMessage))
        else Response(500, ErrorBody(FailedMessage))))
  }

  /** The four values a reader of the mail's text recovers. */
  datatype MailFields = MailFields(name: string, email: string, company: string, message: string)

  /** Splits at the first line break: the line before it and the text after it. */
  function SplitLine(s: string): Option<(string, string)>
    decreases |s|
  {
    if s == [] then None
    else if s[0] == '\n' then Some(([], s[1..]))
    else
      match SplitLine(s[1..])
      case None => None
      case Some((line, rest)) => Some(([s[0]] + line, rest))
  }

  /** `s` without the prefix `p`, if it has it. */
  function DropPrefix(p: string, s: string): Option<string> {
    if StartsWith(s, p) then Some(s[|p|..]) else None
  }

  /** Reads one labelled line: its value and the text after it. */
  function ReadLine(tag: string, s: string): Option<(string, string)> {
    match SplitLine(s)
    case None => None
    case Some((line, rest)) =>
      match DropPrefix(tag, line)
      case None => None
      case Some(value) => Some((value, rest))
  }

  /** Reads the four fields back from a mail text. */
  function ParseMailText(text: string): Option<MailFields> {
    match ReadLine("Name: ", text)
    case None => None
    case Some((name, r1)) =>
      match ReadLine("Email: ", r1)
      case None => None
      case Some((email, r2)) =>
        match ReadLine("Company: ", r2)
        case None => None
        case Some((company, r3)) =>
          match DropPrefix("Message: ", r3)
          case None => None
          case Some(message) => Some(MailFields(name, email, company, message))
  }

  /** A line without a line break in it splits off exactly. */
  lemma {:induction false} SplitLineExact(line: string, rest: string)
    requires '\n' !in line
    ensures SplitLine(line + "\n" + rest) == Some((line, rest))
    decreases |line|
  {
    var s := line + "\n" + rest;
    if line == [] {
      assert s[0] == '\n' && s[1..] == rest;
    } else {
      assert s[0] == line[0] && s[0] != '\n';
      assert s[1..] == line[1..] + "\n" + rest;
      SplitLineExact(line[1..], rest);
      assert [line[0]] + line[1..] == line;
    }
  }

  /** A labelled line reads back its value. */
  lemma ReadLineExact(tag: string, value: string, rest: string)
    requires '\n' !in tag && '\n' !in value
    ensures ReadLine(tag, tag + value + "\n" + rest) == Some((value, rest))
  {
    assert '\n' !in tag + value by {
      forall i | 0 <= i < |tag + value| ensures (tag + value)[i] != '\n' {
        if i < |tag| {
          assert (tag + value)[i] == tag[i];
        } else {
          assert (tag + value)[i] == value[i - |tag|];
        }
      }
    }
    SplitLineExact(tag + value, rest);
    assert (tag + value)[..|tag|] == tag;
    assert (tag + value)[|tag|..] == value;
  }

  /**
    The mail text carries the form: when the name, email and company contain
    no line break (the message may), reading the text back gives all four
    values as they were rendered into it.
   */
  lemma MailTextRoundTrip(f: ContactForm, emailUser: JsField)
    requires '\n' !in Render(f.name) && '\n' !in Render(f.email) && '\n' !in Render(f.company)
    ensures ParseMailText(BuildMail(f, emailUser).text)
      == Some(MailFields(Render(f.name), Render(f.email), Render(f.company), Render(f.message)))
  {
    var n, e, c, m := Render(f.name), Render(f.email), Render(f.company), Render(f.message);
    MailTextLines(n, e, c, m);
    ReadFields(n, e, c, m);
  }

  /** The mail text is four labelled lines, the message last. */
  lemma MailTextLines(n: string, e: string, c: string, m: string)
    ensures "Name: " + n + "\nEmail: " + e + "\nCompany: " + c + "\nMessage: " + m
      == "Name: " + n + "\n" + ("Email: " + e + "\n" + ("Company: " + c + "\n" + ("Message: " + m)))
  {
    assert "\nEmail: " == "\n" + "Email: ";
    assert "\nCompany: " == "\n" + "Company: ";
    assert "\nMessage: " == "\n" + "Message: ";
  }

  /** Four labelled lines read back as their values. */
  lemma ReadFields(n: string, e: string, c: string, m: string)
    requires '\n' !in n && '\n' !in e && '\n' !in c
    ensures ParseMailText("Name: " + n + "\n" + ("Email: " + e + "\n" + ("Company: " + c + "\n" + ("Message: " + m))))
      == Some(MailFields(n, e, c, m))
  {
    var r3 := "Message: " + m;
    var r2 := "Company: " + c + "\n" + r3;
    var r1 := "Email: " + e + "\n" + r2;
    assert ReadLine("Name: ", "Name: " + n + "\n" + r1) == Some((n, r1)) by {
      ReadLineExact("Name: ", n, r1);
    }
    assert ReadLine("Email: ", r1) == Some((e, r2)) by {
      ReadLineExact("Email: ", e, r2);
    }
    assert ReadLine("Company: ", r2) == Some((c, r3)) by {
      ReadLineExact("Company: ", c, r3);
    }
    assert DropPrefix("Message: ", r3) == Some(m) by {
      assert r3[..|"Message: "|] == "Message: ";
      assert r3[|"Message: "|..] == m;
    }
  }
}

=== FILE: floating_chatbot.dfy ===
/**
  The older chat widget whose conversation is a list of prefixed strings
  (`You: …`, `Bot: …`, `Error: …`) and which posts `{message}` to the
  site's own `/api/chat` route. Unlike the Rasa widget it has no loading
  guard on submit.
 */
module FloatingChat {
  import opened JsRuntime

  datatype ChatState = ChatState(messages: seq<string>, input: string, isLoading: bool)

  const UserPrefix := "You: "
  const BotPrefix := "Bot: "
  const ErrorPrefix := "Error: "
  const DefaultError := "Something went wrong"
  const ConnectPrefix := "Error: Could not connect to the bot - "
  const UnknownError := "Unknown error"

  /** The JSON body `{message}` posted to `/api/chat`. */
  datatype ChatRequest = ChatRequest(message: string)

  /** The `reply` and `error` properties of the parsed response body. */
  datatype ReplyBody = ReplyBody(reply: JsField, error: JsField)

  /** A thrown value: an `Error` with its `message`, or anything else. */
  datatype Thrown = ErrorObject(message: string) | NonError

  /** How the request settled: a response with `response.ok` true or false, or an exception. */
  datatype Outcome = Ok(body: ReplyBody) | NotOk(body: ReplyBody) | Threw(thrown: Thrown)

  /** The state when the panel is first rendered. */
  function Initial(): (s: ChatState)
    ensures s.messages == [] && s.input == "" && !s.isLoading
  {
    ChatState([], "", false)
  }

  /** The input's `onChange`. */
  function SetInput(s: ChatState, value: string): (r: ChatState)
    ensures r.input == value && r.messages == s.messages && r.isLoading == s.isLoading
  {
    s.(input := value)
  }

  /** The "Bot is typing..." line is rendered. */
  predicate TypingShown(s: ChatState) {
    s.isLoading
  }

  datatype Begun = Begun(state: ChatState, request: Option<ChatRequest>)

  /** The synchronous part of `handleMessageSubmit`, up to the `fetch` it issues. */
  function Begin(s: ChatState): (b: Begun)
    ensures IsBlank(s.input) ==> b == Begun(s, None)
    ensures !IsBlank(s.input) ==>
      && b.request == Some(ChatRequest(s.input))
      && b.state.messages == s.messages + [UserPrefix + s.input]
      && b.state.input == ""
      && b.state.isLoading
  {
    if Trim(s.input) == "" then
      Begun(s, None)
    else
      Begun(ChatState(s.messages + [UserPrefix + s.input], "", true), Some(ChatRequest(s.input)))
  }

  /** The entry a settled request appends. */
  function ReplyEntry(o: Outcome): (e: string)
    ensures o.Ok? ==> StartsWith(e, BotPrefix) && e[|BotPrefix|..] == Render(o.body.reply)
    ensures o.NotOk? ==> StartsWith(e, ErrorPrefix)
    ensures o.NotOk? && Truthy(o.body.error) ==> e[|ErrorPrefix|..] == o.body.error.s
    ensures o.NotOk? && !Truthy(o.body.error) ==> e[|ErrorPrefix|..] == DefaultError
    ensures o.Threw? ==> StartsWith(e, ConnectPrefix) && StartsWith(e, ErrorPrefix)
    ensures o.Threw? && o.thrown.ErrorObject? ==> e[|ConnectPrefix|..] == o.thrown.message
    ensures o.Threw? && o.thrown.NonError? ==> e[|ConnectPrefix|..] == UnknownError
  {
    match o
    case Ok(body) => BotPrefix + Render(body.reply)
    case NotOk(body) => ErrorPrefix + OrElse(body.error, DefaultError)
    case Threw(ErrorObject(m)) => ConnectPrefix + m
    case Threw(NonError) => ConnectPrefix + UnknownError
  }

  /** The `await` continuation of `handleMessageSubmit` through its `finally`: exactly one entry is appended. */
  function Settle(s: ChatState, o: Outcome): (r: ChatState)
    ensures r.messages == s.messages + [ReplyEntry(o)]
    ensures !r.isLoading && r.input == s.input
  {
    ChatState(s.messages + [ReplyEntry(o)], s.input, false)
  }

  /** "Bot is typing..." appears with each request sent and is gone once one settles. */
  lemma TypingWhileInFlight(s: ChatState, o: Outcome)
    ensures Begin(s).request.Some? ==> TypingShown(Begin(s).state)
    ensures Begin(s).request.None? ==> (TypingShown(Begin(s).state) <==> TypingShown(s))
    ensures !TypingShown(Settle(s, o))
  {
  }

  /** An entry is styled as the user's when it starts with `You:`. */
  predicate IsUserEntry(e: string) {
    StartsWith(e, "You:")
  }

  /** The user's entries are styled as such, and no reply or error entry ever is. */
  lemma EntryStyling(input: string, o: Outcome)
    ensures IsUserEntry(UserPrefix + input)
    ensures !IsUserEntry(ReplyEntry(o))
  {
    assert (UserPrefix + input)[..4] == "You:";
    var e := ReplyEntry(o);
    if o.Ok? {
      assert e[0] == e[..|BotPrefix|][0] == 'B';
    } else {
      assert e[0] == e[..|ErrorPrefix|][0] == 'E';
    }
  }

  /** One valid submit and its settle append exactly the user's entry and one non-user entry, and leave loading off. */
  lemma {:induction false} OneTurn(s: ChatState, o: Outcome)
    requires !IsBlank(s.input)
    ensures var r := Settle(Begin(s).state, o);
      && r.messages == s.messages + [UserPrefix + s.input, ReplyEntry(o)]
      && IsUserEntry(r.messages[|s.messages|])
      && !IsUserEntry(r.messages[|s.messages| + 1])
      && r.input == "" && !r.isLoading
  {
    EntryStyling(s.input, o);
    var b := Begin(s);
    assert b.state.messages == s.messages + [UserPrefix + s.input];
    var r := Settle(b.state, o);
    assert r.messages == s.messages + [UserPrefix + s.input] + [ReplyEntry(o)];
  }

  datatype Event = Typed(value: string) | Submitted | Settled(outcome: Outcome)

  /** The chat state together with the number of requests in flight. */
  datatype Session = Session(chat: ChatState, inFlight: nat)

  /** One event; the text field stays enabled while loading, and a settle only arrives for an issued request. */
  function Step(ss: Session, e: Event): Session {
    match e
    case Typed(v) => ss.(chat := SetInput(ss.chat, v))
    case Submitted =>
      var b := Begin(ss.chat);
      Session(b.state, if b.request.Some? then ss.inFlight + 1 else ss.inFlight)
    case Settled(o) =>
      if ss.inFlight == 0 then ss else Session(Settle(ss.chat, o), ss.inFlight - 1)
  }

  function Run(ss: Session, es: seq<Event>): Session
    decreases |es|
  {
    if es == [] then ss else Run(Step(ss, es[0]), es[1..])
  }

  /** A non-blank submit issues a request and shows the typing line, whatever was in flight before. */
  lemma SubmitIssues(ss: Session)
    requires !IsBlank(ss.chat.input)
    ensures Step(ss, Submitted).inFlight == ss.inFlight + 1
    ensures TypingShown(Step(ss, Submitted).chat)
  {
  }

  /**
    Nothing stops a second submit while the first is loading: typing and
    submitting twice puts two more requests in flight.
   */
  lemma {:induction false} SecondSubmitWhileLoading(ss: Session, a: string, b: string)
    requires !IsBlank(a) && !IsBlank(b)
    ensures Run(ss, [Typed(a), Submitted, Typed(b), Submitted]).inFlight == ss.inFlight + 2
  {
    var es: seq<Event> := [Typed(a), Submitted, Typed(b), Submitted];
    var s1 := Step(ss, es[0]);
    var s2 := Step(s1, es[1]);
    SubmitIssues(s1);
    var s3 := Step(s2, es[2]);
    var s4 := Step(s3, es[3]);
    SubmitIssues(s3);
    assert Run(s4, es[4..]) == s4;
    assert Run(s3, es[3..]) == Run(s4, es[4..]);
    assert Run(s2, es[2..]) == Run(s3, es[3..]);
    assert Run(s1, es[1..]) == Run(s2, es[2..]);
  }

  /**
    The first reply to settle hides "Bot is typing..." even though the second
    request is still pending.
   */
  lemma {:induction false} TypingEndsWithFirstReply(ss: Session, a: string, b: string, o: Outcome)
    requires !IsBlank(a) && !IsBlank(b)
    ensures var r := Run(ss, [Typed(a), Submitted, Typed(b), Submitted, Settled(o)]);
      r.inFlight == ss.inFlight + 1 && !TypingShown(r.chat)
  {
    var es: seq<Event> := [Typed(a), Submitted, Typed(b), Submitted, Settled(o)];
    var s1 := Step(ss, es[0]);
    var s2 := Step(s1, es[1]);
    SubmitIssues(s1);
    var s3 := Step(s2, es[2]);
    var s4 := Step(s3, es[3]);
    SubmitIssues(s3);
    var s5 := Step(s4, es[4]);
    assert s5.inFlight == ss.inFlight + 1 && !TypingShown(s5.chat);
    assert Run(s5, es[5..]) == s5;
    assert Run(s4, es[4..]) == Run(s5, es[5..]);
    assert Run(s3, es[3..]) == Run(s4, es[4..]);
    assert Run(s2, es[2..]) == Run(s3, es[3..]);
    assert Run(s1, es[1..]) == Run(s2, es[2..]);
  }

  /** Whatever the events, the conversation only grows: earlier entries are never changed. */
  lemma {:induction false} RunAppendsOnly(ss: Session, es: seq<Event>)
    ensures |Run(ss, es).chat.messages| >= |ss.chat.messages|
    ensures Run(ss, es).chat.messages[..|ss.chat.messages|] == ss.chat.messages
    decreases |es|
  {
    if es != [] {
      var next := Step(ss, es[0]);
      assert next.chat.messages[..|ss.chat.messages|] == ss.chat.messages;
      RunAppendsOnly(next, es[1..]);
      var fin := Run(next, es[1..]);
      assert fin.chat.messages[..|ss.chat.messages|] == fin.chat.messages[..|next.chat.messages|][..|ss.chat.messages|];
    }
  }

  /** The outer component: the toggle button, and the chat panel while open. */
  datatype Widget = Widget(isOpen: bool, chat: Option<ChatState>)

  function InitialWidget(): (w: Widget)
    ensures !w.isOpen && w.chat.None?
  {
    Widget(false, None)
  }

  /** The toggle button; the panel is mounted fresh on opening and discarded on closing. */
  function Toggle(w: Widget): (r: Widget)
    ensures r.isOpen == !w.isOpen
    ensures r.isOpen ==> r.chat == Some(Initial())
    ensures !r.isOpen ==> r.chat.None?
  {
    if w.isOpen then Widget(false, None) else Widget(true, Some(Initial()))
  }

  /** Two toggles from closed return to closed; reopening shows an empty conversation. */
  lemma ToggleTwice(w: Widget)
    requires !w.isOpen
    ensures Toggle(Toggle(w)) == InitialWidget()
    ensures Toggle(Toggle(Toggle(w))).chat == Some(Initial())
  {
  }
}

=== FILE: hero_section.dfy ===
/**
  The landing page's header state: the scrolled look, the active section
  (the first section whose box straddles the line 100 pixels below the top
  of the viewport), the mobile menu, and the "Hire Me" dialog's open flag.
  Element boxes are measured by the browser and passed in.
 */
module HeroSection {
  import opened JsRuntime
  import opened NavItems

  /** The `top` and `bottom` of a section's bounding box, in viewport pixels. */
  datatype Rect = Rect(top: int, bottom: int)

  datatype HeroState = HeroState(isScrolled: bool, menuOpen: bool, activeSection: string, modalOpen: bool)

  /** The viewport line a section must straddle to become active. */
  const ProbeY := 100

  /** How far above a section `scrollToSection` stops, to clear the fixed header. */
  const HeaderOffset := -80

  function Initial(): (s: HeroState)
    ensures s.activeSection == SectionId(Labels[0])
    ensures !s.isScrolled && !s.menuOpen && !s.modalOpen
  {
    SectionIds();
    HeroState(false, false, "home", false)
  }

  /** The section's element is mounted and its box straddles the probe line. */
  predicate ContainsProbe(r: Option<Rect>) {
    r.Some? && r.value.top <= ProbeY && r.value.bottom > ProbeY
  }

  /** `navItems.find(...)` from position `i`: the first box that straddles the probe line. */
  function FirstMatchFrom(rects: seq<Option<Rect>>, i: nat): (k: Option<nat>)
    requires i <= |rects|
    ensures k.Some? ==> i <= k.value < |rects| && ContainsProbe(rects[k.value])
    ensures k.Some? ==> forall j :: i <= j < k.value ==> !ContainsProbe(rects[j])
    ensures k.None? ==> forall j :: i <= j < |rects| ==> !ContainsProbe(rects[j])
    decreases |rects| - i
  {
    if i == |rects| then None
    else if ContainsProbe(rects[i]) then Some(i)
    else FirstMatchFrom(rects, i + 1)
  }

  /** `handleScroll`, given `window.scrollY` and each nav item's box (`None` when its ref is unset). */
  function HandleScroll(s: HeroState, scrollY: int, rects: seq<Option<Rect>>): (r: HeroState)
    requires |rects| == |Labels|
    ensures r.isScrolled <==> Scrolled(scrollY)
    ensures (forall j :: 0 <= j < |rects| ==> !ContainsProbe(rects[j])) ==> r.activeSection == s.activeSection
    ensures forall k :: 0 <= k < |rects| && ContainsProbe(rects[k]) && (forall j :: 0 <= j < k ==> !ContainsProbe(rects[j])) ==>
      r.activeSection == SectionId(Labels[k])
    ensures r.menuOpen == s.menuOpen && r.modalOpen == s.modalOpen
  {
    var found := FirstMatchFrom(rects, 0);
    var active := if found.Some? then SectionId(Labels[found.value]) else s.activeSection;
    s.(isScrolled := Scrolled(scrollY), activeSection := active)
  }

  /** The desktop nav button for label `i` is highlighted. */
  predicate Highlighted(s: HeroState, i: int)
    requires 0 <= i < |Labels|
  {
    s.activeSection == SectionId(Labels[i])
  }

  /** Whatever the state, at most one nav button is highlighted. */
  lemma AtMostOneHighlighted(s: HeroState, i: int, j: int)
    requires 0 <= i < |Labels| && 0 <= j < |Labels|
    requires Highlighted(s, i) && Highlighted(s, j)
    ensures i == j
  {
    if i != j {
      SectionIdsDistinct(i, j);
    }
  }

  /** After a scroll in which some section straddles the probe line, exactly the first such section's button is highlighted. */
  lemma {:induction false} ScrollHighlightsFirstMatch(s: HeroState, scrollY: int, rects: seq<Option<Rect>>, k: int)
    requires |rects| == |Labels| && 0 <= k < |rects| && ContainsProbe(rects[k])
    requires forall j :: 0 <= j < k ==> !ContainsProbe(rects[j])
    ensures forall i :: 0 <= i < |Labels| ==> (Highlighted(HandleScroll(s, scrollY, rects), i) <==> i == k)
  {
    var r := HandleScroll(s, scrollY, rects);
    forall i | 0 <= i < |Labels|
      ensures Highlighted(r, i) <==> i == k
    {
      if i != k {
        SectionIdsDistinct(i, k);
      }
    }
  }

  datatype Scrolling = Scrolling(state: HeroState, target: Option<int>)

  /** `scrollToSection`: given the section's box (`None` when its ref is unset) and `window.pageYOffset`. */
  function ScrollToSection(s: HeroState, rect: Option<Rect>, pageYOffset: int): (r: Scrolling)
    ensures !r.state.menuOpen
    ensures r.target.Some? <==> rect.Some?
    ensures rect.Some? ==> r.target.value - pageYOffset == rect.value.top - 80
    ensures r.state.isScrolled == s.isScrolled && r.state.activeSection == s.activeSection
    ensures r.state.modalOpen == s.modalOpen
  {
    var target := if rect.Some? then Some(rect.value.top + pageYOffset + HeaderOffset) else None;
    Scrolling(s.(menuOpen := false), target)
  }

  /** The menu button. */
  function ToggleMenu(s: HeroState): (r: HeroState)
    ensures r.menuOpen != s.menuOpen
    ensures r.(menuOpen := s.menuOpen) == s
  {
    s.(menuOpen := !s.menuOpen)
  }

  /** Every "Hire Me" button. */
  function OpenModal(s: HeroState): (r: HeroState)
    ensures r.modalOpen && r.(modalOpen := s.modalOpen) == s
  {
    s.(modalOpen := true)
  }

  /** The dialog's `onClose`. */
  function CloseModal(s: HeroState): (r: HeroState)
    ensures !r.modalOpen && r.(modalOpen := s.modalOpen) == s
  {
    s.(modalOpen := false)
  }

  /** The menu toggle is its own inverse; opening and closing the dialog leaves it closed. */
  lemma TogglesUndo(s: HeroState)
    ensures ToggleMenu(ToggleMenu(s)) == s
    ensures !s.modalOpen ==> CloseModal(OpenModal(s)) == s
  {
  }
}

=== FILE: hire_me_modal.dfy ===
/**
  The "Hire Me" dialog: a four-field form, its change handler, and what the
  submit handler does with the outcome of posting the form to `/api/contact`.
 */
module HireMe {
  import opened JsRuntime

  /** The `name` attributes of the form's four inputs. */
  datatype Field = Name | Email | Company | Message

  datatype FormData = FormData(name: string, email: string, company: string, message: string)

  function Get(f: FormData, k: Field): string {
    match k
    case Name => f.name
    case Email => f.email
    case Company => f.company
    case Message => f.message
  }

  /** The form as first rendered, and as reset after a successful send. */
  function EmptyForm(): (f: FormData)
    ensures forall k :: Get(f, k) == ""
  {
    FormData("", "", "", "")
  }

  /** `handleChange`: `{...formData, [name]: value}` for the input that changed. */
  function HandleChange(f: FormData, k: Field, value: string): (r: FormData)
    ensures Get(r, k) == value
    ensures forall k' :: k' != k ==> Get(r, k') == Get(f, k')
  {
    match k
    case Name => f.(name := value)
    case Email => f.(email := value)
    case Company => f.(company := value)
    case Message => f.(message := value)
  }

  /** A form is determined by its four fields. */
  lemma {:induction false} FieldsDetermineForm(f: FormData, g: FormData)
    requires forall k :: Get(f, k) == Get(g, k)
    ensures f == g
  {
    assert Get(f, Name) == Get(g, Name) && Get(f, Email) == Get(g, Email);
    assert Get(f, Company) == Get(g, Company) && Get(f, Message) == Get(g, Message);
  }

  /** Edits to two different fields commute, and a later edit of the same field wins. */
  lemma {:induction false} ChangesCommute(f: FormData, a: Field, x: string, b: Field, y: string)
    ensures a != b ==> HandleChange(HandleChange(f, a, x), b, y) == HandleChange(HandleChange(f, b, y), a, x)
    ensures HandleChange(HandleChange(f, a, x), a, y) == HandleChange(f, a, y)
  {
    if a != b {
      FieldsDetermineForm(HandleChange(HandleChange(f, a, x), b, y), HandleChange(HandleChange(f, b, y), a, x));
    }
    FieldsDetermineForm(HandleChange(HandleChange(f, a, x), a, y), HandleChange(f, a, y));
  }

  datatype Toast = Toast(title: string, description: string, destructive: bool, duration: int)

  const SentToast := Toast("Message sent successfully!", "Thank you for reaching out. I'll get back to you soon.", false, 5000)
  const FailedToast := Toast("Failed to send message", "Please try again later.", true, 5000)
  const ErrorToast := Toast("An error occurred", "Please try again later.", true, 5000)

  /** How the `fetch` settled: a response with its `ok` flag, or an exception. */
  datatype SubmitOutcome = Answered(ok: bool) | Threw

  /** The form afterwards, how many times `onClose` was called, and the toast shown. */
  datatype Submitted = Submitted(form: FormData, closeCalls: nat, toast: Toast)

  /** `handleSubmit` once the post of `f` has settled. */
  function HandleSubmit(f: FormData, o: SubmitOutcome): (r: Submitted)
    ensures o == Answered(true) ==> r.form == EmptyForm() && r.closeCalls == 1 && r.toast == SentToast && !r.toast.destructive
    ensures o != Answered(true) ==> r.form == f && r.closeCalls == 0 && r.toast.destructive
    ensures o == Answered(false) ==> r.toast == FailedToast
    ensures o.Threw? ==> r.toast == ErrorToast
  {
    match o
    case Answered(ok) =>
      if ok then Submitted(EmptyForm(), 1, SentToast) else Submitted(f, 0, FailedToast)
    case Threw => Submitted(f, 0, ErrorToast)
  }

  /**
    The browser's constraint validation on submit: name, email and message
    are `required`, so none may be empty, and the `type="email"` field must
    hold an address the browser accepts, whose verdict is `emailAccepted`.
   */
  predicate Submittable(f: FormData, emailAccepted: bool) {
    f.name != "" && f.email != "" && f.message != "" && emailAccepted
  }

  /**
    A press of "Send Message": the browser blocks a form that fails
    validation, and `handleSubmit` never runs; otherwise the post settles
    with `o` and the handler reacts to it.
   */
  function Submit(f: FormData, emailAccepted: bool, o: SubmitOutcome): (r: Option<Submitted>)
    ensures r.None? <==> f.name == "" || f.email == "" || f.message == "" || !emailAccepted
    ensures r.Some? ==> (r.value.closeCalls == 1 <==> o == Answered(true))
    ensures r.Some? && o == Answered(true) ==> r.value.form == EmptyForm() && r.value.toast == SentToast
    ensures r.Some? && o != Answered(true) ==> r.value.form == f && r.value.toast.destructive
  {
    if Submittable(f, emailAccepted) then Some(HandleSubmit(f, o)) else None
  }

  /** A form with a required field left empty is never posted, whatever the company field holds. */
  lemma EmptyFormIsBlocked(company: string, emailAccepted: bool, o: SubmitOutcome)
    ensures Submit(EmptyForm(), emailAccepted, o).None?
    ensures Submit(HandleChange(EmptyForm(), Company, company), emailAccepted, o).None?
  {
  }
}

=== FILE: http.dfy ===
/**
  The response shapes the two route handlers build with `NextResponse.json`,
  and what a handler produces when an exception escapes it.
 */
module Http {
  import opened JsRuntime

  /**
    A request body as the handler's destructuring of `await request.json()`
    sees it: an object's properties, or `Malformed`, which covers both a body
    that does not parse and one that parses to `null`, whose destructuring
    throws. A body that parses to a number or string reads as an object with
    every property missing.
   */
  datatype Incoming<T> = Parsed(value: T) | Malformed

  /** The JSON bodies the routes send: `{reply}`, `{error}` or `{message}`. */
  datatype Body = ReplyBody(reply: JsField) | ErrorBody(error: string) | MessageBody(message: string)

  datatype Response = Response(status: int, body: Body)

  /** A handler either returns a response of its own, or lets an exception escape to the framework. */
  datatype Handled = Responded(response: Response) | Escaped

  /** The status `NextResponse.json` uses when none is given. */
  const DefaultStatus := 200
}

=== FILE: js_runtime.dfy ===
/**
  The slice of JavaScript semantics that the portfolio's logic relies on:
  how a property of a parsed JSON object reads back, what a template literal
  prints for it, truthiness of `a || b`, `String.prototype.trim`,
  `toLowerCase` on the ASCII navigation labels, and the `%` operator.
 */
module JsRuntime {

  datatype Option<+T> = None | Some(value: T)

  /** A property read off a parsed JSON object: absent (`undefined`), `null`, or a string. */
  datatype JsField = Missing | Null | Text(s: string)

  /** What a template literal `${v}` prints for the property. */
  function Render(f: JsField): string {
    match f
    case Missing => "undefined"
    case Null => "null"
    case Text(s) => s
  }

  /** `undefined`, `null` and the empty string are falsy; every other string is truthy. */
  predicate Truthy(f: JsField) {
    f.Text? && f.s != ""
  }

  /** `f || fallback` for a string fallback. */
  function OrElse(f: JsField, fallback: string): string {
    if Truthy(f) then f.s else fallback
  }

  /** The characters `trim` removes: ECMAScript WhiteSpace and LineTerminator code points. */
  predicate IsSpace(c: char) {
    || c == '\t' || c == '\n' || c == '\U{B}' || c == '\U{C}' || c == '\r' || c == ' '
    || c == '\U{A0}' || c == '\U{1680}' || ('\U{2000}' <= c <= '\U{200A}')
    || c == '\U{2028}' || c == '\U{2029}' || c == '\U{202F}' || c == '\U{205F}'
    || c == '\U{3000}' || c == '\U{FEFF}'
  }

  /** Every character of `s` is one that `trim` removes (the empty string included). */
  predicate IsBlank(s: string) {
    forall i :: 0 <= i < |s| ==> IsSpace(s[i])
  }

  /** The first position at or after `i` holding a character `trim` keeps, or `|s|` when there is none. */
  function SkipSpaces(s: string, i: nat): (j: nat)
    requires i <= |s|
    ensures i <= j <= |s|
    ensures forall k :: i <= k < j ==> IsSpace(s[k])
    ensures j < |s| ==> !IsSpace(s[j])
    decreases |s| - i
  {
    if i < |s| && IsSpace(s[i]) then SkipSpaces(s, i + 1) else i
  }

  /** Walking back from `j`: the position just after the last character before `j` that `trim` keeps, or 0. */
  function SkipSpacesBack(s: string, j: nat): (k: nat)
    requires j <= |s|
    ensures k <= j
    ensures forall m :: k <= m < j ==> IsSpace(s[m])
    ensures k > 0 ==> !IsSpace(s[k - 1])
    decreases j
  {
    if j > 0 && IsSpace(s[j - 1]) then SkipSpacesBack(s, j - 1) else j
  }

  /** Drops leading whitespace: the result is the suffix after a run of spaces. */
  function TrimStart(s: string): (r: string)
    ensures |r| <= |s| && r == s[|s| - |r|..]
    ensures forall i :: 0 <= i < |s| - |r| ==> IsSpace(s[i])
    ensures r != [] ==> !IsSpace(r[0])
  {
    s[SkipSpaces(s, 0)..]
  }

  /** Drops trailing whitespace: the result is the prefix before a run of spaces. */
  function TrimEnd(s: string): (r: string)
    ensures |r| <= |s| && r == s[..|r|]
    ensures forall i :: |r| <= i < |s| ==> IsSpace(s[i])
    ensures r != [] ==> !IsSpace(r[|r| - 1])
  {
    s[..SkipSpacesBack(s, |s|)]
  }

  /** `s.trim()`: empty exactly when `s` is blank, and otherwise bounded by non-space characters. */
  function Trim(s: string): (r: string)
    ensures r == [] <==> IsBlank(s)
    ensures r != [] ==> !IsSpace(r[0]) && !IsSpace(r[|r| - 1])
  {
    var t := TrimStart(s);
    assert t != [] ==> !IsBlank(s) by {
      if t != [] {
        assert s[|s| - |t|] == t[0];
      }
    }
    TrimEnd(t)
  }

  /**
    `trim` removes exactly the whitespace at the two ends: its result is the
    contiguous slice `s[a..b]`, with only whitespace before `a` and after `b`.
   */
  lemma {:induction false} TrimIsSlice(s: string)
    ensures var a := |s| - |TrimStart(s)|;
      var b := a + |Trim(s)|;
      && 0 <= a <= b <= |s|
      && Trim(s) == s[a..b]
      && IsBlank(s[..a]) && IsBlank(s[b..])
  {
    var a := SkipSpaces(s, 0);
    var t := s[a..];
    var k := SkipSpacesBack(t, |t|);
    assert TrimStart(s) == t;
    assert Trim(s) == t[..k];
    SliceOfSlice(s, a, k);
    BlankSlice(s, 0, a);
    assert s[..a] == s[0..a];
    BlankSlice(t, k, |t|);
    assert t[k..] == t[k..|t|];
  }

  /** Keeping or dropping the first `k` characters of `s[a..]` is a slice of `s` itself. */
  lemma SliceOfSlice(s: string, a: int, k: int)
    requires 0 <= a <= |s| && 0 <= k <= |s| - a
    ensures s[a..][..k] == s[a..a + k]
    ensures s[a..][k..] == s[a + k..]
  {
  }

  /** A slice that holds only whitespace is blank. */
  lemma BlankSlice(s: string, lo: int, hi: int)
    requires 0 <= lo <= hi <= |s|
    requires forall i :: lo <= i < hi ==> IsSpace(s[i])
    ensures IsBlank(s[lo..hi])
  {
    forall j | 0 <= j < hi - lo
      ensures IsSpace(s[lo..hi][j])
    {
      assert s[lo..hi][j] == s[lo + j];
    }
  }

  function Abs(x: int): nat {
    if x < 0 then -x else x
  }

  /** JavaScript's `a % b`: the remainder truncated toward zero, carrying the sign of `a`. */
  function JsRem(a: int, b: int): (r: int)
    requires b != 0
    ensures a >= 0 && b > 0 ==> r == a % b
    ensures a >= 0 ==> 0 <= r < Abs(b)
    ensures a < 0 ==> r <= 0 && r + Abs(b) > 0
  {
    var m := Abs(a) % Abs(b);
    if a >= 0 then m else -m
  }

  /** `toLowerCase` on one character, exact for ASCII. */
  function LowerChar(c: char): char {
    if 'A' <= c <= 'Z' then (c as int + 32) as char else c
  }

  /** `toLowerCase` on a string of ASCII characters. */
  function ToLower(s: string): (r: string)
    ensures |r| == |s|
    ensures forall i :: 0 <= i < |s| ==> r[i] == LowerChar(s[i])
  {
    seq(|s|, i requires 0 <= i < |s| => LowerChar(s[i]))
  }

  /** `s.startsWith(p)`. */
  predicate StartsWith(s: string, p: string) {
    |p| <= |s| && s[..|p|] == p
  }
}

=== FILE: nav_items.dfy ===
/**
  The four navigation labels shared by the hero page header and the navbar,
  and the section id each one addresses: the label lower-cased.
 */
module NavItems {
  import opened JsRuntime

  const Labels: seq<string> := ["Home", "About", "Projects", "Contact"]

  /** Both headers switch to their scrolled look once the page is more than this many pixels down. */
  const ScrollThreshold := 10

  /** `window.scrollY > 10`. */
  predicate Scrolled(scrollY: int) {
    scrollY > ScrollThreshold
  }

  /** `item.toLowerCase()`: the `id` of the section a label addresses. */
  function SectionId(name: string): string {
    ToLower(name)
  }

  /** The section ids, in navigation order. */
  lemma {:induction false} SectionIds()
    ensures SectionId(Labels[0]) == "home"
    ensures SectionId(Labels[1]) == "about"
    ensures SectionId(Labels[2]) == "projects"
    ensures SectionId(Labels[3]) == "contact"
  {
    assert ToLower("Home") == "home" by { LowerWord("Home", "home"); }
    assert ToLower("About") == "about" by { LowerWord("About", "about"); }
    assert ToLower("Projects") == "projects" by { LowerWord("Projects", "projects"); }
    assert ToLower("Contact") == "contact" by { LowerWord("Contact", "contact"); }
  }

  lemma LowerWord(w: string, lower: string)
    requires |w| == |lower| && forall i :: 0 <= i < |w| ==> LowerChar(w[i]) == lower[i]
    ensures ToLower(w) == lower
  {
  }

  /** Different labels address different sections, so at most one label matches a section id. */
  lemma {:induction false} SectionIdsDistinct(i: int, j: int)
    requires 0 <= i < |Labels| && 0 <= j < |Labels| && i != j
    ensures SectionId(Labels[i]) != SectionId(Labels[j])
  {
    SectionIds();
    var a, b := SectionId(Labels[i]), SectionId(Labels[j]);
    assert a[0] != b[0];
  }
}

=== FILE: navbar.dfy ===
/**
  The standalone navbar: its scrolled look, the mobile menu and the anchors
  its links point at.
 */
module Navbar {
  import opened NavItems

  datatype NavbarState = NavbarState(isScrolled: bool, menuOpen: bool)

  function Initial(): (s: NavbarState)
    ensures !s.isScrolled && !s.menuOpen
  {
    NavbarState(false, false)
  }

  /** `handleScroll`, given `window.scrollY`. */
  function HandleScroll(s: NavbarState, scrollY: int): (r: NavbarState)
    ensures r.isScrolled <==> Scrolled(scrollY)
    ensures r.menuOpen == s.menuOpen
  {
    s.(isScrolled := Scrolled(scrollY))
  }

  /** The menu button. */
  function ToggleMenu(s: NavbarState): (r: NavbarState)
    ensures r.menuOpen != s.menuOpen && r.isScrolled == s.isScrolled
  {
    s.(menuOpen := !s.menuOpen)
  }

  /** A mobile link, or the mobile "Hire Me" button. */
  function CloseMenu(s: NavbarState): (r: NavbarState)
    ensures !r.menuOpen && r.isScrolled == s.isScrolled
  {
    s.(menuOpen := false)
  }

  /** The mobile panel is rendered. */
  predicate PanelShown(s: NavbarState) {
    s.menuOpen
  }

  /** `#${item.toLowerCase()}`. */
  function Href(name: string): string {
    "#" + SectionId(name)
  }

  /** Each link is a fragment naming its section, and no two links share one. */
  lemma {:induction false} HrefsAddressSections(i: int, j: int)
    requires 0 <= i < |Labels| && 0 <= j < |Labels|
    ensures Href(Labels[i])[0] == '#' && Href(Labels[i])[1..] == SectionId(Labels[i])
    ensures i != j ==> Href(Labels[i]) != Href(Labels[j])
  {
    assert Href(Labels[i])[1..] == SectionId(Labels[i]);
    if i != j {
      SectionIdsDistinct(i, j);
      assert Href(Labels[j])[1..] == SectionId(Labels[j]);
    }
  }

  /** Following a mobile link always leaves the panel hidden, whether or not it was open. */
  lemma LinkHidesPanel(s: NavbarState)
    ensures !PanelShown(CloseMenu(s))
    ensures PanelShown(ToggleMenu(s)) <==> !PanelShown(s)
  {
  }
}

=== FILE: project_card.dfy ===
/**
  A project card on the landing page: its "View More" flag and the dialog it
  opens, first positioned on the card's own project and afterwards wherever
  the visitor left it.
 */
module ProjectCard {
  import opened ProjectDialog

  /**
    The card's `isDialogOpen` flag and the state of the dialog it renders.
    The dialog is rendered whether or not it is open, so its state is created
    once, when the card mounts, and outlives closing and reopening.
   */
  datatype Card = Card(id: int, dialogOpen: bool, dialog: DialogState)

  /** The card as mounted over `allProjects`: closed, with the dialog positioned by `findIndex`. */
  function Mount(allProjects: seq<Project>, id: int): (c: Card)
    ensures c.id == id && !c.dialogOpen
    ensures c.dialog == Open(InitialProjectIndex(allProjects, id))
  {
    Card(id, false, Open(InitialProjectIndex(allProjects, id)))
  }

  /** "View More": only the flag changes. */
  function ViewMore(c: Card): (r: Card)
    ensures r.dialogOpen && r.id == c.id && r.dialog == c.dialog
  {
    c.(dialogOpen := true)
  }

  /** The dialog's `onClose`: only the flag changes. */
  function CloseDialog(c: Card): (r: Card)
    ensures !r.dialogOpen && r.id == c.id && r.dialog == c.dialog
  {
    c.(dialogOpen := false)
  }

  /** The open dialog's Next button, over the `count` projects it was given. */
  function DialogNext(c: Card, count: int): (r: Card)
    requires count > 0
    ensures r.dialog == HandleNext(c.dialog, count)
    ensures r.id == c.id && r.dialogOpen == c.dialogOpen
  {
    c.(dialog := HandleNext(c.dialog, count))
  }

  /** `findIndex(p => p.id === id)` starting at position `i`. */
  function FindIndexFrom(projects: seq<Project>, id: int, i: nat): (k: int)
    requires i <= |projects|
    ensures k == -1 || i <= k < |projects|
    ensures k == -1 <==> forall j :: i <= j < |projects| ==> projects[j].id != id
    ensures k != -1 ==> projects[k].id == id && forall j :: i <= j < k ==> projects[j].id != id
    decreases |projects| - i
  {
    if i == |projects| then -1
    else if projects[i].id == id then i
    else FindIndexFrom(projects, id, i + 1)
  }

  /** `initialProjectIndex`: the first position holding the card's id, or -1 when none does. */
  function InitialProjectIndex(projects: seq<Project>, id: int): (k: int)
    ensures -1 <= k < |projects|
    ensures k == -1 <==> forall j :: 0 <= j < |projects| ==> projects[j].id != id
    ensures k != -1 ==> projects[k].id == id && forall j :: 0 <= j < k ==> projects[j].id != id
  {
    FindIndexFrom(projects, id, 0)
  }

  /**
    The first "View More" after the card mounts opens the dialog, over the
    full list, on the first project carrying the card's id.
   */
  lemma {:induction false} FirstViewOpensOnCard(allProjects: seq<Project>, id: int, k: int)
    requires 0 <= k < |allProjects| && allProjects[k].id == id
    ensures var c := ViewMore(Mount(allProjects, id));
      && c.dialogOpen
      && 0 <= c.dialog.current <= k
      && CurrentProject(allProjects, c.dialog).id == id
  {
  }

  /** Closing and reopening shows the dialog exactly as it was left: the last project viewed, the same section expanded. */
  lemma ReopenShowsLastViewed(c: Card)
    ensures ViewMore(CloseDialog(c)).dialog == c.dialog
    ensures ViewMore(CloseDialog(c)) == ViewMore(c)
  {
  }

  /**
    A concrete consequence: over two projects, the card of the first one,
    viewed, moved on with Next, closed and viewed again, shows the second
    project rather than its own.
   */
  lemma ReopenAfterNextShowsOtherProject()
    ensures var ps := [Project(1, "", ""), Project(2, "", "")];
      var c := ViewMore(CloseDialog(DialogNext(ViewMore(Mount(ps, 1)), |ps|)));
      && c.dialogOpen
      && CurrentProject(ps, c.dialog).id == 2
  {
    var ps := [Project(1, "", ""), Project(2, "", "")];
    assert InitialProjectIndex(ps, 1) == 0 by {
      assert ps[0].id == 1;
    }
  }
}

=== FILE: project_dialog.dfy ===
/**
  The project details dialog: the index of the project shown, which
  accordion section is expanded on small screens, and the Prev/Next counter.
 */
module ProjectDialog {
  import opened JsRuntime
  import opened Carousel

  /** The fields of a project that the dialog's logic depends on. */
  datatype Project = Project(id: int, title: string, description: string)

  datatype DialogState = DialogState(current: int, expanded: Option<string>, isMobile: bool)

  /** Below this viewport width the dialog shows accordions instead of tabs. */
  const MobileWidth := 640

  /** The dialog's state when it is first rendered with `initialProjectIndex`. */
  function Open(initialProjectIndex: int): (s: DialogState)
    ensures s.current == initialProjectIndex && s.expanded.None? && !s.isMobile
  {
    DialogState(initialProjectIndex, None, false)
  }

  /** `checkMobile`, given `window.innerWidth`. */
  function Resized(s: DialogState, innerWidth: int): (r: DialogState)
    ensures r.isMobile <==> innerWidth < MobileWidth
    ensures r.current == s.current && r.expanded == s.expanded
  {
    s.(isMobile := innerWidth < MobileWidth)
  }

  /** `handleNext` over `count` projects: the following project, with every section collapsed. */
  function HandleNext(s: DialogState, count: int): (r: DialogState)
    requires count > 0
    ensures 0 <= s.current < count ==> 0 <= r.current < count
    ensures r.current == Next(s.current, count)
    ensures r.expanded.None? && r.isMobile == s.isMobile
  {
    s.(current := Next(s.current, count), expanded := None)
  }

  /** `handlePrev` over `count` projects: the preceding project, with every section collapsed. */
  function HandlePrev(s: DialogState, count: int): (r: DialogState)
    requires count > 0
    ensures 0 <= s.current < count ==> 0 <= r.current < count
    ensures r.current == Prev(s.current, count)
    ensures r.expanded.None? && r.isMobile == s.isMobile
  {
    s.(current := Prev(s.current, count), expanded := None)
  }

  /** `toggleSection`: a section's header collapses it if it is the open one, and otherwise opens it alone. */
  function ToggleSection(s: DialogState, section: string): (r: DialogState)
    ensures r.expanded.Some? <==> s.expanded != Some(section)
    ensures r.expanded.Some? ==> r.expanded.value == section
    ensures r.current == s.current && r.isMobile == s.isMobile
  {
    s.(expanded := if s.expanded == Some(section) then None else Some(section))
  }

  /** The accordion section titled `section` shows its items. */
  predicate Expanded(s: DialogState, section: string) {
    s.expanded == Some(section)
  }

  /** Toggling the same section twice from collapsed collapses it again; toggling another switches to it alone. */
  lemma ToggleLaws(s: DialogState, a: string, b: string)
    requires s.expanded.None?
    ensures ToggleSection(ToggleSection(s, a), a) == s
    ensures a != b ==> Expanded(ToggleSection(ToggleSection(s, a), b), b)
    ensures a != b ==> !Expanded(ToggleSection(ToggleSection(s, a), b), a)
  {
  }

  /** `projects[currentProject]`. */
  function CurrentProject(projects: seq<Project>, s: DialogState): (p: Project)
    requires 0 <= s.current < |projects|
    ensures p in projects
  {
    projects[s.current]
  }

  /** The counter `{currentProject + 1} / {projects.length}`. */
  datatype Counter = Counter(position: int, total: int)

  function CounterOf(s: DialogState, count: int): (c: Counter)
    ensures 0 <= s.current < count ==> 1 <= c.position <= c.total
    ensures c.position - 1 == s.current
    ensures c.total == count
  {
    Counter(s.current + 1, count)
  }

  /** The counter names the project on screen: its position, counted from one, is that project's place in the list. */
  lemma CounterNamesShownProject(projects: seq<Project>, s: DialogState)
    requires 0 <= s.current < |projects|
    ensures var c := CounterOf(s, |projects|);
      && 1 <= c.position <= c.total == |projects|
      && projects[c.position - 1] == CurrentProject(projects, s)
  {
  }

  /** Next moves the counter on by one, wrapping from `count / count` to `1 / count`; Prev undoes it. */
  lemma {:induction false} CounterFollowsNavigation(s: DialogState, count: int)
    requires 0 <= s.current < count
    ensures CounterOf(HandleNext(s, count), count).position
      == (if CounterOf(s, count).position == count then 1 else CounterOf(s, count).position + 1)
    ensures HandlePrev(HandleNext(s, count), count).current == s.current
    ensures HandleNext(HandlePrev(s, count), count).current == s.current
  {
    NextPrevInverse(s.current, count);
  }

  /** The dialog's buttons. */
  datatype Click = NextClick | PrevClick | SectionClick(section: string) | Resize(innerWidth: int)

  function Apply(s: DialogState, count: int, c: Click): DialogState
    requires count > 0
  {
    match c
    case NextClick => HandleNext(s, count)
    case PrevClick => HandlePrev(s, count)
    case SectionClick(section) => ToggleSection(s, section)
    case Resize(w) => Resized(s, w)
  }

  function ApplyAll(s: DialogState, count: int, cs: seq<Click>): DialogState
    requires count > 0
    decreases |cs|
  {
    if cs == [] then s else ApplyAll(Apply(s, count, cs[0]), count, cs[1..])
  }

  /** However the visitor clicks, a dialog opened on a valid project always shows a valid project. */
  lemma {:induction false} ClicksStayInRange(s: DialogState, count: int, cs: seq<Click>)
    requires 0 <= s.current < count
    ensures 0 <= ApplyAll(s, count, cs).current < count
    decreases |cs|
  {
    if cs != [] {
      ClicksStayInRange(Apply(s, count, cs[0]), count, cs[1..]);
    }
  }
}

=== FILE: project_gallery.dfy ===
/**
  The `/projects` gallery page: one project on screen at a time, moved with
  Prev/Next arrows or by the row of dots.
 */
module ProjectGallery {
  import opened Carousel

  /** `currentProject`, starting at 0. */
  datatype Gallery = Gallery(current: int)

  function Initial(): (g: Gallery)
    ensures g.current == 0
  {
    Gallery(0)
  }

  function HandleNext(g: Gallery, count: int): (r: Gallery)
    requires count > 0
    ensures 0 <= g.current < count ==> 0 <= r.current < count
    ensures r.current == Next(g.current, count)
  {
    Gallery(Next(g.current, count))
  }

  function HandlePrev(g: Gallery, count: int): (r: Gallery)
    requires count > 0
    ensures 0 <= g.current < count ==> 0 <= r.current < count
    ensures r.current == Prev(g.current, count)
  {
    Gallery(Prev(g.current, count))
  }

  /** The `k`-th dot. */
  function SelectDot(g: Gallery, k: int): (r: Gallery)
    ensures r.current == k
  {
    Gallery(k)
  }

  /** The dot for project `k` is drawn as the active one. */
  predicate DotActive(g: Gallery, k: int) {
    g.current == k
  }

  /** The indices, among `count` projects from position `from` on, that `projects.map` renders. */
  function RenderedFrom(g: Gallery, from: nat, count: nat): (ks: seq<nat>)
    requires from <= count
    ensures forall j :: 0 <= j < |ks| ==> from <= ks[j] < count && ks[j] == g.current
    ensures from <= g.current < count ==> ks == [g.current as nat]
    ensures !(from <= g.current < count) ==> ks == []
    decreases count - from
  {
    if from == count then []
    else if g.current == from then [from] + RenderedFrom(g, from + 1, count)
    else RenderedFrom(g, from + 1, count)
  }

  /** Exactly the current project is rendered, and nothing when the index is out of range. */
  lemma RenderedIsCurrent(g: Gallery, count: nat)
    ensures 0 <= g.current < count ==> RenderedFrom(g, 0, count) == [g.current as nat]
    ensures !(0 <= g.current < count) ==> RenderedFrom(g, 0, count) == []
  {
  }

  /** The dot drawn as active is the project rendered, and a dot click makes its own dot the active one. */
  lemma ActiveDotIsRendered(g: Gallery, k: int, count: nat)
    requires 0 <= k < count
    ensures DotActive(SelectDot(g, k), k)
    ensures DotActive(g, k) <==> RenderedFrom(g, 0, count) == [k as nat]
  {
  }

  /** With two projects, both arrows go to the other one. */
  lemma ArrowsCoincideForTwo(g: Gallery)
    requires 0 <= g.current < 2
    ensures HandleNext(g, 2) == HandlePrev(g, 2)
    ensures HandleNext(g, 2).current == 1 - g.current
  {
    TwoItemsCoincide(g.current);
  }

  datatype Click = NextArrow | PrevArrow | Dot(k: nat)

  function Apply(g: Gallery, count: int, c: Click): Gallery
    requires count > 0
  {
    match c
    case NextArrow => HandleNext(g, count)
    case PrevArrow => HandlePrev(g, count)
    case Dot(k) => SelectDot(g, k)
  }

  function ApplyAll(g: Gallery, count: int, cs: seq<Click>): Gallery
    requires count > 0
    decreases |cs|
  {
    if cs == [] then g else ApplyAll(Apply(g, count, cs[0]), count, cs[1..])
  }

  /** A dot exists only for an index of `projects`. */
  ghost predicate DotsInRange(cs: seq<Click>, count: int) {
    forall j :: 0 <= j < |cs| && cs[j].Dot? ==> cs[j].k < count
  }

  /** From the initial state, every sequence of clicks leaves exactly one project on screen. */
  lemma {:induction false} ClicksShowOneProject(g: Gallery, count: int, cs: seq<Click>)
    requires 0 <= g.current < count && DotsInRange(cs, count)
    ensures 0 <= ApplyAll(g, count, cs).current < count
    ensures |RenderedFrom(ApplyAll(g, count, cs), 0, count)| == 1
    decreases |cs|
  {
    if cs != [] {
      assert DotsInRange(cs[1..], count) by {
        forall j | 0 <= j < |cs[1..]| && cs[1..][j].Dot? ensures cs[1..][j].k < count {
          assert cs[1..][j] == cs[j + 1];
        }
      }
      ClicksShowOneProject(Apply(g, count, cs[0]), count, cs[1..]);
    }
  }
}

=== FILE: rotating_text.dfy ===
/**
  `useRotatingText`: the hero heading cycles through its phrases, each change
  split into a fade-out and a later commit of the next index.
 */
module RotatingText {
  import opened Carousel

  datatype Rotation = Rotation(index: int, visible: bool)

  /** The phrases the hero section rotates through. */
  const HeroPhrases: seq<string> := [
    "Hi, I'm Shreyas Salyan",
    "I'm a Full-Stack Developer",
    "I create seamless digital experiences",
    "Let's build something amazing together"
  ]

  function Initial(): (r: Rotation)
    ensures r.index == 0 && r.visible
  {
    Rotation(0, true)
  }

  /** The interval callback's first half: hide the phrase. */
  function FadeOut(r: Rotation): (r': Rotation)
    ensures r'.index == r.index && !r'.visible
  {
    r.(visible := false)
  }

  /** The timeout half a second later: show the next phrase. */
  function Commit(r: Rotation, count: int): (r': Rotation)
    requires count > 0
    ensures r'.visible
    ensures 0 <= r.index < count ==> 0 <= r'.index < count
    ensures 0 <= r.index < count ==> r'.index == (if r.index == count - 1 then 0 else r.index + 1)
  {
    Rotation(Next(r.index, count), true)
  }

  /** `phrases[currentIndex]`. */
  function CurrentPhrase(phrases: seq<string>, r: Rotation): (p: string)
    requires 0 <= r.index < |phrases|
    ensures p in phrases
  {
    phrases[r.index]
  }

  /** One full interval: fade out, then commit. */
  function Tick(r: Rotation, count: int): Rotation
    requires count > 0
  {
    Commit(FadeOut(r), count)
  }

  /** `k` intervals in a row; the index stays within the phrases. */
  function Ticks(r: Rotation, count: int, k: nat): (r': Rotation)
    requires count > 0
    ensures 0 <= r.index < count ==> 0 <= r'.index < count
  {
    if k == 0 then r else Tick(Ticks(r, count, k - 1), count)
  }

  /** After `k` intervals the index has moved `k` places around the phrases, and the phrase is shown. */
  lemma {:induction false} TicksAdvance(r: Rotation, count: int, k: nat)
    requires 0 <= r.index < count
    ensures Ticks(r, count, k).index == Advance(r.index, k, count)
    ensures k > 0 ==> Ticks(r, count, k).visible
    ensures 0 <= Ticks(r, count, k).index < count
  {
    if k > 0 {
      TicksAdvance(r, count, k - 1);
    }
  }

  /** Every phrase gets its turn: after as many intervals as there are phrases, the first one is back. */
  lemma FullRotation(count: int)
    requires count > 0
    ensures Ticks(Initial(), count, count) == Initial()
  {
    TicksAdvance(Initial(), count, count);
    FullCycle(0, count);
  }

  /** Starting from the initial state, the `k`-th interval shows phrase `k mod 4` of the hero's list. */
  lemma HeroPhraseAfter(k: nat)
    ensures CurrentPhrase(HeroPhrases, Ticks(Initial(), |HeroPhrases|, k)) == HeroPhrases[k % |HeroPhrases|]
  {
    TicksAdvance(Initial(), |HeroPhrases|, k);
    AdvanceIsOffset(0, k, |HeroPhrases|);
  }
}
